=== FILE: README.md ===
# PHIN VADS catalog harvester: the paging engine in Dafny

The harvester walks the PHIN VADS ValueSet catalog, a FHIR Bundle listing served
page by page. This project models that walk and the summary rows it writes:

- picking the "next" and "self" paging links out of a page (`getResponseLinks`);
- fetching one address with linear back-off. A page without entries counts as
  a throttled reply and is fetched again, up to `MaxRetries` = 10 times, and a
  blank address is refused outright (`getNextResponse`);
- the walk over the whole catalog (`getAllResponses`). The total is frozen from
  the first page and the entries seen are counted. When a "next" page cannot be
  had while entries are still missing, the walk resumes once from
  `url + "?_getpages=" + <id of the last entry seen>`;
- one CSV row per ValueSet. The `selfUrl` column is the base address followed
  by the id, and the publisher is flattened onto one trimmed line
  (`writeEntriesToCsv`), under the header row the program writes first.

The network is replaced by a script. The k-th fetch of a walk, counting from 0
across every address, receives `script[k]`, or a page without entries once the
script is used up. Every fetch consumes one element, so the number of fetches
made so far is also the position in the script. Each method returns, as
ordinary outputs:

- the list of addresses it fetched;
- the seconds it slept, in order;
- for each page collected, how the page was reached and which fetch returned
  it. A page is reached by `Start` (the base address), by `Next(url)` (the
  "next" link of the page before it), or by `Resume(next, url)` (the resume
  address `url`, after the call for the "next" address `next` failed).

The contracts speak about those outputs. The sleeps of a walk are exactly the
back-offs of the calls it made, in call order. A successful call slept 3, 6, …
seconds, once after each empty page. A failed call slept 3, 6, …, 30 seconds,
or not at all when its address was blank.

A walk ends in one of four ways:

- `FirstFetchFailed`: the base address gave 11 empty pages;
- `ReachedTotal`: a "next" page arrived once the count had reached the total;
- `NextFailedAtTotal(next)`: the "next" address failed once the count had
  reached the total;
- `ResumeFailed(next, url)`: the "next" address failed short of the total, and
  so did the resume address.

Files:

- `strings.dfy`: `Strings` holds `strings.TrimSpace` and the `\r?\n` → `" "` replacement.
- `wrappers.dfy`: `Wrappers` holds `Option` and `Result`.
- `phinvads.dfy`: `Phinvads` holds the Bundle records the engine reads.
- `catalog.dfy`: `Catalog` holds the constants, the paging links and the back-off fetch.
- `walk.dfy`: `Walker` holds the walk.
- `summary.dfy`: `Summary` holds the CSV rows.

## Model

| member | source | states |
|---|---|---|
| Strings.TrimSpace | phinvadsCatalog.go:96 | the result is never longer than the input, has no white space at either end, and is empty exactly when the input is blank |
| Strings.TrimSpaceSpan | phinvadsCatalog.go:96 | bounds i <= j such that the result is `s[i..j]`, with only white space in `s[..i]` and in `s[j..]` |
| Strings.TrimSpaceInfix | phinvadsCatalog.go:96 | the result is an infix `s[i..j]` of the input with only white space before and after it. With the result's own ends not white space, this fixes it |
| Strings.TrimSpaceIdempotent | phinvadsCatalog.go:139 | trimming twice is trimming once |
| Strings.TrimSpaceKeepsChars | phinvadsCatalog.go:139 | every character the trimmed text keeps occurs in the input |
| Strings.TrimSpaceNoLineFeed | phinvadsCatalog.go:139 | trimming text that has no line feed leaves none |
| Strings.TrimSpacePadded | phinvadsCatalog.go:139 | one space on each side of trimmed text is removed again, and nothing else is |
| Strings.ReplaceNewlines | phinvadsCatalog.go:30-31 | no line feed is left, and the text never grows |
| Strings.ReplaceNewlinesNoMatch | phinvadsCatalog.go:31 | text without a line feed is left unchanged |
| Strings.ReplaceNewlinesKeep | phinvadsCatalog.go:31 | a character that is not `\n`, and not a `\r` just before one, is kept as it is, and the replacement goes on after it |
| Strings.ReplaceNewlinesAfter | phinvadsCatalog.go:31 | a prefix with no line feed and no trailing carriage return passes through unchanged, whatever follows it |
| Strings.ReplaceNewlinesLeadingBreak | phinvadsCatalog.go:31 | a `\n` or `\r\n` at the start becomes one space, and the rest is replaced in turn |
| Strings.ReplaceNewlinesBreak | phinvadsCatalog.go:31 | after text with no line feed, a `\r\n`, or a `\n` not preceded by `\r`, becomes one space; the text before it is kept and the rest is replaced in turn |
| Strings.ReplaceNewlinesLf | phinvadsCatalog.go:31 | `a + "\n" + b` becomes `a + " "` followed by the replacement of `b`, when `a` has no line feed and does not end in `\r` |
| Strings.ReplaceNewlinesCrLf | phinvadsCatalog.go:31 | `a + "\r\n" + b` becomes `a + " "` followed by the replacement of `b`, when `a` has no line feed |
| Strings.ReplaceNewlinesIdempotent | phinvadsCatalog.go:139 | replacing line breaks a second time changes nothing |
| Strings.ReplaceNewlinesLength | phinvadsCatalog.go:31 | each `\r\n` pair shortens the text by one, and a bare `\n` keeps its length |
| Catalog.LinkOfNone | phinvadsCatalog.go:90-103 | with no link of the relation, the address found is "" |
| Catalog.LinkOfLast | phinvadsCatalog.go:90-103 | the address found is the trimmed address of the LAST link of that relation; earlier links and other relations play no part |
| Catalog.LinkOfStep | phinvadsCatalog.go:94-101 | reading one more link either replaces the address (same relation) or keeps it |
| Catalog.GetResponseLinks | phinvadsCatalog.go:90-103 | the in-order pass returns, for "next" and "self", the last matching link's trimmed address, or "" |
| Catalog.MessageNamesUrl | phinvadsCatalog.go:123 | the retries-exceeded message ends with the address that could not be had |
| Catalog.BackoffIncreasing | phinvadsCatalog.go:125-127 | the back-off sleeps grow strictly, from 3 up to at most 30 seconds |
| Catalog.BackoffAppend | phinvadsCatalog.go:120-127 | the k-th retry sleeps one unit longer than the retry before it: k × 3 seconds |
| Catalog.GetNextResponse | phinvadsCatalog.go:106-132 | a blank address fails with no fetch and no sleep; otherwise it fetches the same address 1 to 11 times, with sleeps 3, 6, … after each empty page; it returns either the first page with entries (every earlier fetch empty) or, after exactly 11 empty pages, a failure naming the address |
| Catalog.Retry | phinvadsCatalog.go:112-131 | for an address that is not blank: 1 to 11 fetches of it, sleeps 3, 6, … after each empty page but the 11th, and either the first page with entries or, after 11 empty pages, the retries-exceeded failure naming the address |
| Walker.HarvestSkipsEmpty | phinvadsCatalog.go:118-120 | fetches that return empty pages add no page to the walk |
| Walker.TallyAppend | phinvadsCatalog.go:178 | a page adds exactly its number of entries to the count |
| Walker.AltUrlNotBlank | phinvadsCatalog.go:195 | the resume address starts with the base address, so it is never refused as blank |
| Walker.ChainNext | phinvadsCatalog.go:182-215 | a page got from the "next" address, which is never blank since a blank one is refused without a fetch, extends the chain of pages, with the empty fetches before it accounted for |
| Walker.ChainResume | phinvadsCatalog.go:183-210 | a page got by resuming extends the chain after a failed call for the "next" address (no fetch if that address was blank, 11 empty fetches otherwise), and the hop records that address |
| Walker.CountedAppend | phinvadsCatalog.go:178-186 | a round started short of the total leaves the count at the tally of all earlier pages, with the total unchanged |
| Walker.NextSleeps | phinvadsCatalog.go:122-127 | a hop through the "next" address adds exactly the back-off of its call to the sleeps: one sleep per empty fetch before the page |
| Walker.ReachedTotalSleeps | phinvadsCatalog.go:212-219 | when that hop ends the walk, the sleeps are the back-offs of the calls that collected the pages, and nothing after |
| Walker.ResumeSleeps | phinvadsCatalog.go:182-198 | a resume hop adds the back-off of the failed "next" call (none for a blank address, 3 to 30 otherwise) and then the back-off of the resume call |
| Walker.NextFailedSleeps | phinvadsCatalog.go:182-219 | a failed "next" call that ends the walk adds its own back-off to the sleeps, and the walk's sleeps end there |
| Walker.ResumeFailedSleeps | phinvadsCatalog.go:182-203 | a failed resume adds the failed "next" call's back-off and then the full back-off of 3 to 30 seconds, and the walk's sleeps end there |
| Walker.FirstSleeps | phinvadsCatalog.go:160 | the sleeps before the first page are the back-off of the first call alone |
| Walker.NextStep | phinvadsCatalog.go:182-220 | a "next" page with the count still short of the total leads to the next round, with the page's call and its sleeps accounted for |
| Walker.ReachedTotalStep | phinvadsCatalog.go:212-220 | a "next" page with the count at or past the total is kept, and the walk ends without counting it, its sleeps those of the calls made |
| Walker.NextFailedStep | phinvadsCatalog.go:183-219 | a failed "next" call with the count at or past the total ends the walk without a resume, naming the address that failed |
| Walker.ResumeFailedStep | phinvadsCatalog.go:186-204 | a failed resume ends the walk with every earlier page kept, naming the failed "next" address and the resume address |
| Walker.ResumeStep | phinvadsCatalog.go:195-209 | a successful resume keeps the resumed page, not yet counted, and leads to the next round with the count still short of the total |
| Walker.NextNeverBlank | phinvadsCatalog.go:106-110 | a page reached by its "next" link was fetched from the previous page's "next" address, which is not blank |
| Walker.ResumeOnlyShort | phinvadsCatalog.go:186 | a page reached by resuming was reached while the count was short of the total |
| Walker.Recover | phinvadsCatalog.go:186-211 | one call of the resume address after the last id: either the next round, or the end of the walk with the pages kept |
| Walker.Round | phinvadsCatalog.go:175-221 | one round adds the current page's entries to the count, keeps the total and the pages, and either reaches the next round short of the total or ends the walk; an empty page can never end it |
| Walker.FirstStep | phinvadsCatalog.go:160-173 | the first page starts the walk with the total it declares and nothing counted |
| Walker.GetAllResponses | phinvadsCatalog.go:157-223 | the pages returned are every page with entries that the fetches returned, in fetch order. There are none exactly when the first 11 fetches of the base address were empty; the walk then made those 11 fetches and slept 3, 6, …, 30 seconds. Otherwise the pages chain from the base address through "next" and resume hops, each successful call making at most 10 empty fetches and each failed one 11 (none for a blank address). The total is the first page's, a round ran only while the count was short of it, the ending accounts for the fetches after the last page, and the sleeps are exactly the back-offs of the calls made |
| Summary.NormalizePublisher | phinvadsCatalog.go:139 | the publisher column has no line feed, no white space at either end, and is never longer than the publisher |
| Summary.NormalizePublisherInfix | phinvadsCatalog.go:139 | the publisher column is the publisher with its line breaks replaced, less only the white space at its two ends; it is empty exactly when that text is blank |
| Summary.NormalizePublisherCrLf | phinvadsCatalog.go:139 | "Acme\r\nLabs" becomes "Acme Labs" |
| Summary.NormalizePublisherTrailingBreak | phinvadsCatalog.go:139 | " Acme\nLabs\n" becomes "Acme Labs" |
| Summary.NormalizePublisherIdempotent | phinvadsCatalog.go:139 | normalizing a normalized publisher changes nothing |
| Summary.WriteEntriesToCsv | phinvadsCatalog.go:135-153 | one row per entry, in order, and the id of the last entry ("" for a page without entries) |
| Summary.PageRowsColumns | phinvadsCatalog.go:138-148 | row i has the six header columns: selfUrl = base address + id, id, name, title, normalized publisher, date |
| Summary.PageRowsWellFormed | phinvadsCatalog.go:138-148 | every row has six columns, its selfUrl is the base address followed by its own id, and its publisher is one trimmed line |
| Summary.LastIdResumes | phinvadsCatalog.go:180-195 | the last id of a page's rows is the id the walk resumes after |
| Summary.AllRowsCount | phinvadsCatalog.go:260-262 | the summary body has one row per entry collected |
| Summary.AllRowsWellFormed | phinvadsCatalog.go:260-262 | every row of the summary body is in the shape of the header |
| Summary.SummaryShape | phinvadsCatalog.go:257-262 | the header followed by every page's rows has 1 + (entries collected) rows, the header first and each later row in its shape |
| Summary.WriteSummary | phinvadsCatalog.go:257-262 | the header row first, then each page's rows in the order the pages were collected: 1 + (entries collected) rows in all |

## Left out

- HTTP, JSON decoding and the `check` panics in `fetchUri` (lines 67-85) are
  replaced by the scripted fetch. A body that is empty, holds only white
  space, starts with `]` or `}`, or cannot be read gives a page without
  entries (`decoder.More()` at line 76 is false), which the script can
  supply. Any other body that fails to decode panics, as does a transport
  error, and neither is modelled.
- `writeJsonToFile` (lines 41-63) runs on every fetch (line 82) and panics
  on any file error. Examples are a first run with no `results` directory,
  since `main` creates it only after the walk (lines 240-245) and line 45
  does not create parents, or a ValueSet name containing `/` (line 54). The
  model assumes every write succeeds. The rest of `main`'s file and
  directory handling (lines 241-254) is left out for the same reason: it
  is file output only.
- The CSV encoder's quoting of the rows is not modelled; the rows are kept as
  sequences of fields.
- Console output (`fmt.Println` / `Printf` / `Fprintf`) is not modelled, nor
  are real sleeps: the sleeps appear as a list of seconds.
- `totalEntries` and `countEntries` are process-wide variables in the program.
  Here they are fields of the walk state, starting at 0, which matches the
  single call of `getAllResponses` made by `main`.
- Walker.GetAllResponses: the 64-bit counters are modelled as unbounded
  integers; overflow would need more than 2^63 entries.
- Strings.TrimSpace: only ASCII white space is trimmed. Go also trims the
  Unicode space characters (U+0085, U+00A0 and others). The model assumes the
  server's addresses contain none of these characters. An address made only
  of them is refused at line 108 without a fetch, but is fetched here. They
  can appear in the free-text publisher trimmed at line 139: a publisher
  that starts or ends with U+00A0 keeps it here and loses it in the program.
- Strings.TrimSpace: its own contract gives the shape of the result only. That
  the result is the input less white space at its ends is stated for every
  string by `Strings.TrimSpaceInfix`. As part of the contract, that statement
  would be carried into every proof that reads a link address.
- Bundle fields the engine never reads (identifiers, composition, metadata,
  the bundle's id and type, entry `fullUrl`) are not part of this model.

## Notes on the source

- The exit test at line 217 has a second disjunct,
  `response != nil && len(response.Entry) == 0`, that can never hold. Every
  page `getNextResponse` returns has entries (lines 118-129), and after a
  failed call `response` is nil. Only the count ends the walk there, and
  `Walker.Round` asserts as much.
- The `continue` at line 209 skips the exit test after a successful resume,
  but that test would be false there anyway. The branch is entered only with
  `countEntries < totalEntries` (line 186), and the resumed page, which has
  entries, is not counted yet. The next round counts it. If that round's
  "next" call succeeds with the count at or past the total, the page it got
  is kept and the walk ends (`ReachedTotal`). If the call fails with the count
  at or past the total, the walk ends with no resume (`NextFailedAtTotal`).
- When a "next" page arrives once the count has reached the total (the
  `ReachedTotal` ending), that page is kept but its entries are never added
  to the count. The count is only increased at the top of the next round,
  which never comes.
- The index at line 180 is always in range. Every page the loop sees came
  from a successful `getNextResponse`, so it has at least one entry.

=== FILE: catalog.dfy ===
/** The paging engine of the PHIN VADS catalog harvester: picking the paging
    links out of a Bundle page, fetching a page with bounded back-off, and the
    walk over the whole catalog that recovers from a broken "next" link by
    resuming from the id of the last entry seen.

    The network is replaced by a script: the k-th fetch of a walk (counting
    from 0, across every URL) receives `script[k]`, or an empty page once the
    script is used up. Every fetch consumes one element, so the number of
    fetches made so far is also the position in the script. */
module Catalog {
  import opened Wrappers
  import opened Strings
  import opened Phinvads

  /** How many times an empty page is refetched before giving up. */
  const MaxRetries: nat := 10

  /** The catalog's base listing address. */
  const Url: string := "https://phinvads.cdc.gov/baseStu3/ValueSet/"

  /** The query parameter that asks the server to resume after an id. */
  const FetchPages: string := "?_getpages="

  /** The back-off unit, in seconds. */
  const DurationInSeconds: nat := 3

  // ---------------------------------------------------------------------------
  // Paging links

  /** Reference meaning of a paging link: the trimmed address of the LAST link
      whose relation is exactly `relation`, or "" when there is none. */
  function LinkOf(links: seq<Link>, relation: string): string
    decreases |links|
  {
    if |links| == 0 then ""
    else if links[|links| - 1].relation == relation then TrimSpace(links[|links| - 1].url)
    else LinkOf(links[..|links| - 1], relation)
  }

  /** The i-th link has relation `relation` and no later link does. */
  predicate IsLastWith(links: seq<Link>, relation: string, i: int) {
    && 0 <= i < |links|
    && links[i].relation == relation
    && forall j :: i < j < |links| ==> links[j].relation != relation
  }

  /** With no link of the relation, LinkOf is "". */
  lemma {:induction false} LinkOfNone(links: seq<Link>, relation: string)
    requires forall i :: 0 <= i < |links| ==> links[i].relation != relation
    ensures LinkOf(links, relation) == ""
    decreases |links|
  {
    if |links| > 0 {
      var front := links[..|links| - 1];
      assert forall i :: 0 <= i < |front| ==> front[i] == links[i];
      LinkOfNone(front, relation);
    }
  }

  /** LinkOf is the trimmed address of the last link of the relation; links
      of other relations, and earlier links of the same one, play no part. */
  lemma {:induction false} LinkOfLast(links: seq<Link>, relation: string, i: int)
    requires IsLastWith(links, relation, i)
    ensures LinkOf(links, relation) == TrimSpace(links[i].url)
    decreases |links|
  {
    var n := |links| - 1;
    if i < n {
      var front := links[..n];
      assert links[n].relation != relation;
      assert forall j :: 0 <= j < |front| ==> front[j] == links[j];
      LinkOfLast(front, relation, i);
    }
  }

  /** One more link, read in order, settles LinkOf for the longer prefix. */
  lemma LinkOfStep(links: seq<Link>, relation: string, i: nat)
    requires i < |links|
    ensures LinkOf(links[..i + 1], relation)
            == if links[i].relation == relation then TrimSpace(links[i].url) else LinkOf(links[..i], relation)
  {
    assert links[..i + 1][..i] == links[..i];
  }

  /** The "next" address of a page. */
  function NextLink(page: Response): string {
    LinkOf(page.link, "next")
  }

  /** `getResponseLinks`: one pass over the links, where a later link of the
      same relation overrides an earlier one. */
  method GetResponseLinks(response: Response) returns (nextUrl: string, selfUrl: string)
    ensures nextUrl == LinkOf(response.link, "next")
    ensures selfUrl == LinkOf(response.link, "self")
  {
    nextUrl := "";
    selfUrl := "";
    var i := 0;
    while i < |response.link|
      invariant 0 <= i <= |response.link|
      invariant nextUrl == LinkOf(response.link[..i], "next")
      invariant selfUrl == LinkOf(response.link[..i], "self")
    {
      var link := response.link[i];
      if link.relation == "next" {
        nextUrl := TrimSpace(link.url);
      }
      if link.relation == "self" {
        selfUrl := TrimSpace(link.url);
      }
      LinkOfStep(response.link, "next", i);
      LinkOfStep(response.link, "self", i);
      i := i + 1;
    }
    assert response.link[..i] == response.link;
  }

  // ---------------------------------------------------------------------------
  // Fetching with back-off

  /** The page the k-th fetch of a walk receives. */
  function Fetch(script: seq<Response>, k: nat): Response {
    if k < |script| then script[k] else EmptyResponse
  }

  /** A page with no entries, which the catalog treats as a throttled reply. */
  predicate Empty(page: Response) {
    |page.entry| == 0
  }

  /** Why fetching an address failed. */
  datatype FetchError = BlankUrl | RetriesExceeded(url: string)

  /** The message the catalog reports for each failure. */
  function Message(e: FetchError): string {
    match e
    case BlankUrl => "cannot fetch an empty URL"
    case RetriesExceeded(u) => "Max retries exceeded. Cannot retrieve " + u
  }

  /** The failure message after the retries ends with the address that
      could not be had. */
  lemma MessageNamesUrl(u: string)
    ensures var m := Message(RetriesExceeded(u)); |m| >= |u| && m[|m| - |u|..] == u
  {
  }

  /** The first `n` sleeps of the back-off: the k-th retry waits k units. */
  function Backoff(n: nat): seq<int> {
    seq(n, k requires 0 <= k < n => DurationInSeconds * (k + 1))
  }

  /** One more retry waits one unit longer than the retry before it. */
  lemma BackoffAppend(n: nat)
    ensures Backoff(n + 1) == Backoff(n) + [DurationInSeconds * (n + 1)]
  {
    assert forall k :: 0 <= k < n ==> Backoff(n + 1)[k] == Backoff(n)[k];
  }

  /** Every fetch numbered lo .. hi-1 came back empty. */
  predicate AllEmpty(script: seq<Response>, lo: nat, hi: nat) {
    forall k :: lo <= k < hi ==> Empty(Fetch(script, k))
  }

  /** Back-off sleeps grow strictly and never exceed MaxRetries units. */
  lemma BackoffIncreasing(n: nat)
    requires n <= MaxRetries
    ensures forall j, k :: 0 <= j < k < n ==> Backoff(n)[j] < Backoff(n)[k]
    ensures forall k :: 0 <= k < n ==> DurationInSeconds <= Backoff(n)[k] <= DurationInSeconds * MaxRetries
  {
  }

  /** How many fetches a call for `url` makes when it fails. */
  function Attempts(url: string): nat {
    if IsBlank(url) then 0 else MaxRetries + 1
  }

  /** `getNextResponse`: fetch `nextUrl` until a page with entries arrives,
      sleeping one more back-off unit after each empty page, and give up after
      the (MaxRetries + 1)-th empty page. A blank address is refused before any
      fetch. `start` is how many fetches the walk has made before this call;
      `fetched` lists the addresses this call fetched and `sleeps` the seconds
      it slept. */
  method GetNextResponse(nextUrl: string, script: seq<Response>, start: nat)
    returns (r: Result<Response, FetchError>, fetched: seq<string>, sleeps: seq<int>)
    ensures IsBlank(nextUrl) ==> r == Failure(BlankUrl) && fetched == [] && sleeps == []
    ensures !IsBlank(nextUrl) ==> 1 <= |fetched| <= MaxRetries + 1 && sleeps == Backoff(|fetched| - 1)
    ensures forall k :: 0 <= k < |fetched| ==> fetched[k] == nextUrl
    ensures |fetched| > 0 ==> AllEmpty(script, start, start + |fetched| - 1)
    ensures r.Success? ==> !Empty(r.value) && r.value == Fetch(script, start + |fetched| - 1)
    ensures r.Failure? ==> |fetched| == Attempts(nextUrl) && AllEmpty(script, start, start + |fetched|)
    ensures r.Failure? && !IsBlank(nextUrl) ==> r.error == RetriesExceeded(nextUrl)
    ensures AllEmpty(script, start, start + MaxRetries + 1) ==> r.Failure?
  {
    if |TrimSpace(nextUrl)| == 0 {
      return Failure(BlankUrl), [], [];
    }
    r, fetched, sleeps := Retry(nextUrl, script, start);
  }

  /** The retry loop of `getNextResponse` for an address that is not blank:
      at most MaxRetries + 1 fetches of it, the k-th empty page followed by a
      sleep of k units, and either the first page with entries or, after
      MaxRetries + 1 empty pages, the retries-exceeded failure. */
  method Retry(nextUrl: string, script: seq<Response>, start: nat)
    returns (r: Result<Response, FetchError>, fetched: seq<string>, sleeps: seq<int>)
    requires !IsBlank(nextUrl)
    ensures 1 <= |fetched| <= MaxRetries + 1 && sleeps == Backoff(|fetched| - 1)
    ensures forall k :: 0 <= k < |fetched| ==> fetched[k] == nextUrl
    ensures AllEmpty(script, start, start + |fetched| - 1)
    ensures r.Success? ==> !Empty(r.value) && r.value == Fetch(script, start + |fetched| - 1)
    ensures r.Failure? ==> |fetched| == MaxRetries + 1 && Empty(Fetch(script, start + MaxRetries))
    ensures r.Failure? ==> r.error == RetriesExceeded(nextUrl)
  {
    var retryCount := 0;
    fetched := [];
    sleeps := [];
    while true
      invariant 0 <= retryCount <= MaxRetries
      invariant |fetched| == retryCount
      invariant sleeps == Backoff(retryCount)
      invariant forall k :: 0 <= k < |fetched| ==> fetched[k] == nextUrl
      invariant AllEmpty(script, start, start + retryCount)
      decreases MaxRetries - retryCount
    {
      var response := Fetch(script, start + |fetched|);
      fetched := fetched + [nextUrl];
      if |response.entry| == 0 {
        retryCount := retryCount + 1;
        if retryCount > MaxRetries {
          return Failure(RetriesExceeded(nextUrl)), fetched, sleeps;
        }
        AllEmptyExtend(script, start, start + retryCount - 1);
        var duration := DurationInSeconds * retryCount;
        BackoffAppend(retryCount - 1);
        sleeps := sleeps + [duration];
      } else {
        return Success(response), fetched, sleeps;
      }
    }
  }

  /** One more empty fetch extends a run of empty fetches. */
  lemma AllEmptyExtend(script: seq<Response>, lo: nat, hi: nat)
    requires AllEmpty(script, lo, hi) && Empty(Fetch(script, hi))
    ensures AllEmpty(script, lo, hi + 1)
  {
  }
}

=== FILE: phinvads.dfy ===
/** The parts of the FHIR Bundle and ValueSet records that the catalog reads.
    Fields the paging and the summary never look at (identifiers, the
    composition, metadata, the bundle's own id and type) are left out. */
module Phinvads {

  /** One paging link of a Bundle: a relation such as "next" or "self" and the
      address it points to. */
  datatype Link = Link(relation: string, url: string)

  /** The descriptive fields of one ValueSet. */
  datatype Resource = Resource(id: string, name: string, title: string, publisher: string, date: string)

  /** One entry of a Bundle page, wrapping its ValueSet. */
  datatype Entry = Entry(resource: Resource)

  /** One Bundle page: the total the server declares, its paging links and
      its entries in server order. */
  datatype Response = Response(total: int, link: seq<Link>, entry: seq<Entry>)

  /** The zero value a fetch yields when the body holds no JSON value. */
  const EmptyResponse: Response := Response(0, [], [])
}

=== FILE: strings.dfy ===
/** Text helpers the catalog relies on: Go's `strings.TrimSpace` (restricted to
    ASCII white space) and the `\r?\n` regular-expression replacement used to
    flatten the publisher field. */
module Strings {

  /** ASCII white space as Go's `unicode.IsSpace` sees it: tab, line feed,
      vertical tab, form feed, carriage return and space. */
  predicate IsSpace(c: char) {
    c == ' ' || c == '\t' || c == '\n' || c == '\r' || c == '\U{0B}' || c == '\U{0C}'
  }

  /** True if the string is empty or made only of white space. */
  predicate IsBlank(s: string) {
    forall k :: 0 <= k < |s| ==> IsSpace(s[k])
  }

  /** Drops the leading white space. */
  function TrimLeft(s: string): (r: string)
    ensures |r| <= |s| && r == s[|s| - |r|..]
    ensures forall k :: 0 <= k < |s| - |r| ==> IsSpace(s[k])
    ensures r == [] || !IsSpace(r[0])
  {
    if |s| > 0 && IsSpace(s[0]) then TrimLeft(s[1..]) else s
  }

  /** Drops the trailing white space. */
  function TrimRight(s: string): (r: string)
    ensures |r| <= |s| && r == s[..|r|]
    ensures forall k :: |r| <= k < |s| ==> IsSpace(s[k])
    ensures r == [] || !IsSpace(r[|r| - 1])
  {
    if |s| > 0 && IsSpace(s[|s| - 1]) then TrimRight(s[..|s| - 1]) else s
  }

  /** `strings.TrimSpace`: the infix of `s` left once white space is removed
      from both ends. */
  function TrimSpace(s: string): (r: string)
    ensures |r| <= |s|
    ensures r == [] || (!IsSpace(r[0]) && !IsSpace(r[|r| - 1]))
    ensures |r| == 0 <==> IsBlank(s)
  {
    var l := TrimLeft(s);
    var r := TrimRight(l);
    assert r != [] ==> r[0] == l[0];
    assert IsBlank(s) <==> l == [] by {
      if l != [] {
        assert s[|s| - |l|] == l[0];
      }
    }
    r
  }

  /** What TrimLeft drops is white space. */
  lemma TrimLeftDropsBlank(s: string)
    ensures IsBlank(s[..|s| - |TrimLeft(s)|])
  {
    var i := |s| - |TrimLeft(s)|;
    forall k | 0 <= k < i
      ensures IsSpace(s[..i][k])
    {
      assert s[..i][k] == s[k];
    }
  }

  /** What TrimRight drops is white space. */
  lemma TrimRightDropsBlank(s: string)
    ensures IsBlank(s[|TrimRight(s)|..])
  {
    var j := |TrimRight(s)|;
    forall k | 0 <= k < |s| - j
      ensures IsSpace(s[j..][k])
    {
      assert s[j..][k] == s[j + k];
    }
  }

  /** The bounds of what TrimSpace keeps: `s[i..j]`, with only white space
      in `s[..i]` and in `s[j..]`. */
  lemma TrimSpaceSpan(s: string) returns (i: nat, j: nat)
    ensures i <= j <= |s| && TrimSpace(s) == s[i..j]
    ensures IsBlank(s[..i]) && IsBlank(s[j..])
  {
    var l := TrimLeft(s);
    var r := TrimRight(l);
    i := |s| - |l|;
    j := i + |r|;
    TrimLeftDropsBlank(s);
    TrimRightDropsBlank(l);
    assert l == s[i..];
    assert r == s[i..j];
    assert s[j..] == l[|r|..];
  }

  /** TrimSpace keeps a contiguous part of `s` and drops only white space
      around it. With the ends of the result not white space, this pins the
      result down. */
  lemma TrimSpaceInfix(s: string)
    ensures exists i, j :: 0 <= i <= j <= |s| && TrimSpace(s) == s[i..j] && IsBlank(s[..i]) && IsBlank(s[j..])
  {
    var i, j := TrimSpaceSpan(s);
  }

  /** The text `s` with leading and trailing white space at most; any
      string whose ends are not white space is left alone by TrimSpace. */
  lemma TrimSpaceKeepsTrimmed(s: string)
    requires s == [] || (!IsSpace(s[0]) && !IsSpace(s[|s| - 1]))
    ensures TrimSpace(s) == s
  {
  }

  /** One space on each side of trimmed text is trimmed away again. */
  lemma TrimSpacePadded(t: string)
    requires t != [] && !IsSpace(t[0]) && !IsSpace(t[|t| - 1])
    ensures TrimSpace(" " + t + " ") == t
  {
    var s := " " + t + " ";
    assert s[1..] == t + " ";
    assert TrimLeft(t + " ") == t + " ";
    assert (t + " ")[..|t|] == t;
    assert TrimRight(t + " ") == TrimRight(t) == t;
  }

  /** TrimSpace only removes characters: everything it keeps was in `s`. */
  lemma TrimSpaceKeepsChars(s: string)
    ensures forall k :: 0 <= k < |TrimSpace(s)| ==> TrimSpace(s)[k] in s
  {
    var i, j := TrimSpaceSpan(s);
    forall k | 0 <= k < j - i
      ensures s[i..j][k] in s
    {
      assert s[i..j][k] == s[i + k];
    }
  }

  /** Trimming text with no line feed leaves none. */
  lemma TrimSpaceNoLineFeed(s: string)
    requires forall k :: 0 <= k < |s| ==> s[k] != '\n'
    ensures forall k :: 0 <= k < |TrimSpace(s)| ==> TrimSpace(s)[k] != '\n'
  {
    var i, j := TrimSpaceSpan(s);
    forall k | 0 <= k < j - i
      ensures s[i..j][k] != '\n'
    {
      assert s[i..j][k] == s[i + k];
    }
  }

  /** TrimSpace is idempotent. */
  lemma TrimSpaceIdempotent(s: string)
    ensures TrimSpace(TrimSpace(s)) == TrimSpace(s)
  {
    TrimSpaceKeepsTrimmed(TrimSpace(s));
  }

  /** `regexp.MustCompile("\r?\n").ReplaceAllString(s, " ")`: every line break,
      written either `\n` or `\r\n`, becomes a single space. Matches are found
      leftmost first, so a `\r` not followed by `\n` stays in place. */
  function ReplaceNewlines(s: string): (r: string)
    ensures forall k :: 0 <= k < |r| ==> r[k] != '\n'
    ensures |r| <= |s|
    decreases |s|
  {
    if |s| == 0 then ""
    else if |s| >= 2 && s[0] == '\r' && s[1] == '\n' then " " + ReplaceNewlines(s[2..])
    else if s[0] == '\n' then " " + ReplaceNewlines(s[1..])
    else [s[0]] + ReplaceNewlines(s[1..])
  }

  /** Text with no line feed has nothing for the pattern to match. */
  lemma {:induction false} ReplaceNewlinesNoMatch(s: string)
    requires forall k :: 0 <= k < |s| ==> s[k] != '\n'
    ensures ReplaceNewlines(s) == s
    decreases |s|
  {
    if |s| > 0 {
      ReplaceNewlinesNoMatch(s[1..]);
    }
  }

  /** A line break at the very start turns into one space. */
  lemma ReplaceNewlinesLeadingBreak(br: string, b: string)
    requires br == "\r\n" || br == "\n"
    ensures ReplaceNewlines(br + b) == " " + ReplaceNewlines(b)
  {
    var s := br + b;
    if br == "\r\n" {
      assert s[2..] == b;
    } else {
      assert s[1..] == b;
    }
  }

  /** A character that does not start a line break is kept as it is. */
  lemma ReplaceNewlinesKeep(c: char, t: string)
    requires c != '\n' && (c != '\r' || t == [] || t[0] != '\n')
    ensures ReplaceNewlines([c] + t) == [c] + ReplaceNewlines(t)
  {
    assert ([c] + t)[1..] == t;
  }

  /** Text with no line feed that does not end in a carriage return passes
      through unchanged, whatever follows it. */
  lemma {:induction false} ReplaceNewlinesAfter(a: string, b: string)
    requires forall k :: 0 <= k < |a| ==> a[k] != '\n'
    requires a == [] || a[|a| - 1] != '\r'
    ensures ReplaceNewlines(a + b) == a + ReplaceNewlines(b)
    decreases |a|
  {
    if |a| > 0 {
      var rest := a[1..];
      var t := rest + b;
      assert a + b == [a[0]] + t;
      assert |rest| > 0 ==> t[0] == a[1];
      ReplaceNewlinesKeep(a[0], t);
      ReplaceNewlinesAfter(rest, b);
      assert a + ReplaceNewlines(b) == [a[0]] + (rest + ReplaceNewlines(b));
    } else {
      assert a + b == b;
    }
  }

  /** A line break written `\n` or `\r\n` after text with no line feed
      turns into one space; a `\r` just before a bare `\n` would instead
      belong to the break. */
  lemma {:induction false} ReplaceNewlinesBreak(a: string, br: string, b: string)
    requires forall k :: 0 <= k < |a| ==> a[k] != '\n'
    requires br == "\r\n" || (br == "\n" && (a == [] || a[|a| - 1] != '\r'))
    ensures ReplaceNewlines(a + br + b) == a + " " + ReplaceNewlines(b)
    decreases |a|
  {
    if |a| == 0 {
      assert a + br + b == br + b;
      ReplaceNewlinesLeadingBreak(br, b);
    } else {
      var rest := a[1..];
      var t := rest + br + b;
      assert a + br + b == [a[0]] + t;
      assert t[0] == (if |rest| > 0 then a[1] else br[0]);
      ReplaceNewlinesKeep(a[0], t);
      ReplaceNewlinesBreak(rest, br, b);
      assert a + " " + ReplaceNewlines(b) == [a[0]] + (rest + " " + ReplaceNewlines(b));
    }
  }

  /** A line feed after text with no line feed, and not ending in `\r`,
      becomes one space. */
  lemma ReplaceNewlinesLf(a: string, b: string)
    requires forall k :: 0 <= k < |a| ==> a[k] != '\n'
    requires a == [] || a[|a| - 1] != '\r'
    ensures ReplaceNewlines(a + "\n" + b) == a + " " + ReplaceNewlines(b)
  {
    ReplaceNewlinesBreak(a, "\n", b);
  }

  /** A `\r\n` pair after text with no line feed becomes one space. */
  lemma ReplaceNewlinesCrLf(a: string, b: string)
    requires forall k :: 0 <= k < |a| ==> a[k] != '\n'
    ensures ReplaceNewlines(a + "\r\n" + b) == a + " " + ReplaceNewlines(b)
  {
    ReplaceNewlinesBreak(a, "\r\n", b);
  }

  /** Replacing line breaks a second time changes nothing. */
  lemma ReplaceNewlinesIdempotent(s: string)
    ensures ReplaceNewlines(ReplaceNewlines(s)) == ReplaceNewlines(s)
  {
    ReplaceNewlinesNoMatch(ReplaceNewlines(s));
  }

  /** Every line break turns into exactly one space: a `\r\n` pair shrinks the
      text by one character and a bare `\n` keeps its length. */
  lemma {:induction false} ReplaceNewlinesLength(s: string)
    ensures |ReplaceNewlines(s)| + CrLfPairs(s) == |s|
    decreases |s|
  {
    if |s| == 0 {
    } else if |s| >= 2 && s[0] == '\r' && s[1] == '\n' {
      ReplaceNewlinesLength(s[2..]);
    } else {
      ReplaceNewlinesLength(s[1..]);
    }
  }

  /** Number of `\r\n` pairs the pattern consumes. */
  function CrLfPairs(s: string): nat
    decreases |s|
  {
    if |s| == 0 then 0
    else if |s| >= 2 && s[0] == '\r' && s[1] == '\n' then 1 + CrLfPairs(s[2..])
    else CrLfPairs(s[1..])
  }
}

=== FILE: summary.dfy ===
/** The catalog summary: one CSV row per ValueSet, with the publisher
    flattened onto a single line, under a fixed header row. */
module Summary {
  import opened Strings
  import opened Phinvads
  import opened Catalog
  import opened Walker

  /** The header row of the summary. */
  const Header: seq<string> := ["selfUrl", "id", "name", "title", "publisher", "date"]

  /** The publisher as the summary shows it: line breaks become spaces and
      the ends are trimmed. */
  function NormalizePublisher(publisher: string): (r: string)
    ensures forall k :: 0 <= k < |r| ==> r[k] != '\n'
    ensures r == [] || (!IsSpace(r[0]) && !IsSpace(r[|r| - 1]))
    ensures |r| <= |publisher|
  {
    var flat := ReplaceNewlines(publisher);
    TrimSpaceNoLineFeed(flat);
    TrimSpace(flat)
  }

  /** The normalized publisher is the part of the flattened publisher
      `flat` between its leading and its trailing white space, and it is
      empty exactly when `flat` is blank. */
  lemma NormalizePublisherInfix(publisher: string, flat: string)
    requires flat == ReplaceNewlines(publisher)
    ensures exists i, j :: 0 <= i <= j <= |flat| && NormalizePublisher(publisher) == flat[i..j]
                           && IsBlank(flat[..i]) && IsBlank(flat[j..])
    ensures NormalizePublisher(publisher) == [] <==> IsBlank(flat)
  {
    TrimSpaceInfix(flat);
  }

  /** A publisher split over two lines comes out on one. */
  lemma NormalizePublisherCrLf()
    ensures NormalizePublisher("Acme\r\nLabs") == "Acme Labs"
  {
    ReplaceNewlinesNoMatch("Labs");
    assert ReplaceNewlines("\r\nLabs") == " Labs";
    assert "Acme\r\nLabs" == "Acme" + "\r\nLabs";
    ReplaceNewlinesAfter("Acme", "\r\nLabs");
    assert "Acme" + " Labs" == "Acme Labs";
    TrimSpaceKeepsTrimmed("Acme Labs");
  }

  /** Line breaks at the ends turn into spaces, which are then trimmed. */
  lemma NormalizePublisherTrailingBreak()
    ensures NormalizePublisher(" Acme\nLabs\n") == "Acme Labs"
  {
    FlattenExample();
    TrimExample();
  }

  /** Both line feeds of the example become spaces. */
  lemma FlattenExample()
    ensures ReplaceNewlines(" Acme\nLabs\n") == " Acme Labs "
  {
    assert ReplaceNewlines("\n") == " ";
    assert "Labs\n" == "Labs" + "\n";
    ReplaceNewlinesAfter("Labs", "\n");
    assert ReplaceNewlines("\nLabs\n") == " " + ReplaceNewlines("Labs\n");
    assert " Acme\nLabs\n" == " Acme" + "\nLabs\n";
    ReplaceNewlinesAfter(" Acme", "\nLabs\n");
    assert " Acme" + (" " + ("Labs" + " ")) == " Acme Labs ";
  }

  /** The spaces the line feeds left at the ends are trimmed. */
  lemma TrimExample()
    ensures TrimSpace(" Acme Labs ") == "Acme Labs"
  {
    var t := "Acme Labs";
    assert !IsSpace(t[0]) && !IsSpace(t[|t| - 1]);
    TrimSpacePadded(t);
    assert " " + t + " " == " Acme Labs ";
  }

  /** Normalizing an already normalized publisher changes nothing. */
  lemma NormalizePublisherIdempotent(publisher: string)
    ensures NormalizePublisher(NormalizePublisher(publisher)) == NormalizePublisher(publisher)
  {
    var r := NormalizePublisher(publisher);
    ReplaceNewlinesNoMatch(r);
    assert ReplaceNewlines(r) == r;
    TrimSpaceKeepsTrimmed(r);
    assert TrimSpace(r) == r;
  }

  /** The summary row of one entry. */
  function Row(e: Entry): seq<string> {
    [Url + e.resource.id, e.resource.id, e.resource.name, e.resource.title,
     NormalizePublisher(e.resource.publisher), e.resource.date]
  }

  /** A row in the shape of the header: its address is the base listing
      address followed by its id, and its publisher is a single trimmed
      line. */
  predicate WellFormedRow(row: seq<string>) {
    && |row| == |Header|
    && row[0] == Url + row[1]
    && (forall k :: 0 <= k < |row[4]| ==> row[4][k] != '\n')
    && (row[4] == [] || (!IsSpace(row[4][0]) && !IsSpace(row[4][|row[4]| - 1])))
  }

  /** The rows of one page, in entry order. */
  function PageRows(page: Response): seq<seq<string>> {
    seq(|page.entry|, i requires 0 <= i < |page.entry| => Row(page.entry[i]))
  }

  /** `writeEntriesToCsv`: one row per entry of the page, in order, and the
      id of the last entry written ("" when the page has none). */
  method WriteEntriesToCsv(page: Response) returns (rows: seq<seq<string>>, lastId: string)
    ensures rows == PageRows(page)
    ensures lastId == LastId(page)
  {
    lastId := "";
    rows := [];
    var i := 0;
    while i < |page.entry|
      invariant 0 <= i <= |page.entry|
      invariant rows == PageRows(page)[..i]
      invariant lastId == (if i == 0 then "" else page.entry[i - 1].resource.id)
    {
      var e := page.entry[i];
      var selfUrl := Url + e.resource.id;
      var publisher := NormalizePublisher(e.resource.publisher);
      lastId := e.resource.id;
      PageRowsNext(page, i);
      rows := rows + [[selfUrl, lastId, e.resource.name, e.resource.title, publisher, e.resource.date]];
      i := i + 1;
    }
    assert PageRows(page)[..i] == PageRows(page);
  }

  /** The rows of a page's first i + 1 entries: those of its first i, then
      the row of entry i. */
  lemma PageRowsNext(page: Response, i: int)
    requires 0 <= i < |page.entry|
    ensures PageRows(page)[..i + 1] == PageRows(page)[..i] + [Row(page.entry[i])]
  {
  }

  /** Row i of a page carries entry i's fields in the header's order. */
  lemma PageRowsColumns(page: Response, i: int)
    requires 0 <= i < |page.entry|
    ensures |PageRows(page)| == |page.entry|
    ensures var row := PageRows(page)[i]; var v := page.entry[i].resource;
            && |row| == |Header|
            && row[0] == Url + v.id && row[1] == v.id && row[2] == v.name && row[3] == v.title
            && row[4] == NormalizePublisher(v.publisher) && row[5] == v.date
  {
  }

  /** Every row of a page is in the shape of the header. */
  lemma PageRowsWellFormed(page: Response)
    ensures forall i :: 0 <= i < |PageRows(page)| ==> WellFormedRow(PageRows(page)[i])
  {
    forall i | 0 <= i < |page.entry|
      ensures WellFormedRow(PageRows(page)[i])
    {
      var publisher := page.entry[i].resource.publisher;
      assert PageRows(page)[i][4] == NormalizePublisher(publisher);
    }
  }

  /** The last id a page's rows report is exactly the one a resume after
      that page starts from. */
  lemma LastIdResumes(page: Response)
    requires !Empty(page)
    ensures AltUrl(page) == Url + FetchPages + PageRows(page)[|page.entry| - 1][1]
  {
  }

  /** The rows of all the pages, page after page. */
  function AllRows(pages: seq<Response>): seq<seq<string>> {
    if |pages| == 0 then [] else AllRows(pages[..|pages| - 1]) + PageRows(pages[|pages| - 1])
  }

  /** The summary holds one row per entry collected. */
  lemma {:induction false} AllRowsCount(pages: seq<Response>)
    ensures |AllRows(pages)| == Tally(pages)
    decreases |pages|
  {
    if |pages| > 0 {
      AllRowsCount(pages[..|pages| - 1]);
    }
  }

  /** Every row of the summary body is in the shape of the header. */
  lemma {:induction false} AllRowsWellFormed(pages: seq<Response>)
    ensures forall i :: 0 <= i < |AllRows(pages)| ==> WellFormedRow(AllRows(pages)[i])
    decreases |pages|
  {
    if |pages| > 0 {
      var front, last := AllRows(pages[..|pages| - 1]), PageRows(pages[|pages| - 1]);
      AllRowsWellFormed(pages[..|pages| - 1]);
      PageRowsWellFormed(pages[|pages| - 1]);
      assert AllRows(pages) == front + last;
      forall i | 0 <= i < |front + last|
        ensures WellFormedRow((front + last)[i])
      {
        if i < |front| {
          assert (front + last)[i] == front[i];
        } else {
          assert (front + last)[i] == last[i - |front|];
        }
      }
    }
  }

  /** The rows of one more page follow the rows of the pages before it. */
  lemma AllRowsNext(pages: seq<Response>, i: int)
    requires 0 <= i < |pages|
    ensures AllRows(pages[..i + 1]) == AllRows(pages[..i]) + PageRows(pages[i])
  {
    assert pages[..i + 1][..i] == pages[..i];
  }

  /** The header followed by the rows of all the pages has one row per entry
      collected, under the header, each in the header's shape. */
  lemma SummaryShape(pages: seq<Response>, table: seq<seq<string>>)
    requires table == [Header] + AllRows(pages)
    ensures |table| == 1 + Tally(pages)
    ensures table[0] == Header && table[1..] == AllRows(pages)
    ensures forall i :: 1 <= i < |table| ==> WellFormedRow(table[i])
  {
    AllRowsCount(pages);
    AllRowsWellFormed(pages);
    assert forall i :: 1 <= i < |table| ==> table[i] == AllRows(pages)[i - 1];
  }

  /** The summary the catalog writes: the header, then each page's rows in
      the order the pages were collected. */
  method WriteSummary(pages: seq<Response>) returns (table: seq<seq<string>>)
    ensures |table| == 1 + Tally(pages)
    ensures table[0] == Header
    ensures table[1..] == AllRows(pages)
    ensures forall i :: 1 <= i < |table| ==> WellFormedRow(table[i])
  {
    table := [Header];
    var i := 0;
    while i < |pages|
      invariant 0 <= i <= |pages|
      invariant table == [Header] + AllRows(pages[..i])
    {
      var rows, _ := WriteEntriesToCsv(pages[i]);
      AllRowsNext(pages, i);
      table := table + rows;
      i := i + 1;
    }
    assert pages[..i] == pages;
    SummaryShape(pages, table);
  }
}

=== FILE: walk.dfy ===
/** The walk over the whole catalog (`getAllResponses`): follow the "next"
    links page after page against the total declared by the first page, and
    when a "next" page cannot be had while entries are still missing, resume
    once after the id of the last entry seen. */
module Walker {
  import opened Wrappers
  import opened Strings
  import opened Phinvads
  import opened Catalog

  // ---------------------------------------------------------------------------
  // Pages and counts

  /** The pages with entries among the first `n` fetches, in fetch order. */
  function Harvest(script: seq<Response>, n: nat): (pages: seq<Response>)
    ensures |pages| <= n
    ensures forall i :: 0 <= i < |pages| ==> !Empty(pages[i])
  {
    if n == 0 then []
    else Harvest(script, n - 1) + (if Empty(Fetch(script, n - 1)) then [] else [Fetch(script, n - 1)])
  }

  /** Fetches that return empty pages add nothing to the harvest. */
  lemma {:induction false} HarvestSkipsEmpty(script: seq<Response>, a: nat, b: nat)
    requires a <= b
    requires AllEmpty(script, a, b)
    ensures Harvest(script, b) == Harvest(script, a)
    decreases b - a
  {
    if a < b {
      HarvestSkipsEmpty(script, a, b - 1);
    }
  }

  /** Number of entries on the given pages. */
  function Tally(pages: seq<Response>): nat {
    if |pages| == 0 then 0 else Tally(pages[..|pages| - 1]) + |pages[|pages| - 1].entry|
  }

  /** Appending one page adds its entries to the tally. */
  lemma TallyAppend(pages: seq<Response>, p: Response)
    ensures Tally(pages + [p]) == Tally(pages) + |p.entry|
  {
    assert (pages + [p])[..|pages|] == pages;
  }

  /** The id of the last entry of a page, or "" for a page without entries. */
  function LastId(page: Response): string {
    if |page.entry| == 0 then "" else page.entry[|page.entry| - 1].resource.id
  }

  /** The address that resumes the listing after the last entry of `page`. */
  function AltUrl(page: Response): string {
    Url + FetchPages + LastId(page)
  }

  /** Resume addresses start with the base listing address, so they are never
      blank and a resume always fetches. */
  lemma AltUrlNotBlank(page: Response)
    ensures !IsBlank(AltUrl(page))
  {
    assert Url[0] == 'h';
    assert AltUrl(page) == Url + (FetchPages + LastId(page));
    assert AltUrl(page)[0] == Url[0];
  }

  // ---------------------------------------------------------------------------
  // The fetches of a walk

  /** The fetches numbered lo .. hi-1 were all of `url` and all came back
      empty. */
  predicate EmptyRun(script: seq<Response>, fetched: seq<string>, lo: nat, hi: nat, url: string) {
    lo <= hi <= |fetched| && forall k :: lo <= k < hi ==> fetched[k] == url && Empty(Fetch(script, k))
  }

  /** An empty run of one successful call: at most MaxRetries empty fetches
      come before its page. */
  predicate Retried(script: seq<Response>, fetched: seq<string>, lo: nat, hi: nat, url: string) {
    hi - lo <= MaxRetries && EmptyRun(script, fetched, lo, hi, url)
  }

  /** Later fetches leave an empty run as it was. */
  lemma {:induction false} EmptyRunGrow(script: seq<Response>, fetched: seq<string>, more: seq<string>, lo: nat, hi: nat, url: string)
    requires EmptyRun(script, fetched, lo, hi, url)
    ensures EmptyRun(script, fetched + more, lo, hi, url)
  {
    forall k | lo <= k < hi
      ensures (fetched + more)[k] == url
    {
      assert (fetched + more)[k] == fetched[k];
    }
  }

  /** The fetches one call of GetNextResponse appended form an empty run. */
  lemma {:induction false} EmptyRunOfCall(script: seq<Response>, fetched: seq<string>, f: seq<string>, m: nat, url: string)
    requires m <= |f|
    requires forall k :: 0 <= k < |f| ==> f[k] == url
    requires AllEmpty(script, |fetched|, |fetched| + m)
    ensures EmptyRun(script, fetched + f, |fetched|, |fetched| + m, url)
  {
    forall k | |fetched| <= k < |fetched| + m
      ensures (fetched + f)[k] == url && Empty(Fetch(script, k))
    {
      assert (fetched + f)[k] == f[k - |fetched|];
    }
  }

  /** How a page of the walk was reached: the base address, the "next"
      address of the page before it, or the resume address `url` after that
      page's "next" address `next` failed. */
  datatype Via = Start | Next(url: string) | Resume(next: string, url: string)

  /** The address a page was fetched from. */
  function ViaUrl(v: Via): string {
    match v
    case Start => Url
    case Next(u) => u
    case Resume(_, u) => u
  }

  /** The fetches between the page `prev` (got by fetch `from`) and its
      successor (got by fetch `to` through `via`): either empty fetches of the
      "next" address, which is not blank, or a failed attempt at the "next" address (no fetch at
      all if it is blank, otherwise MaxRetries + 1 empty ones) followed by
      empty fetches of the resume address. Either way the hop names the
      "next" address of `prev`. A successful call makes at most
      MaxRetries empty fetches before its page. */
  predicate Hop(script: seq<Response>, fetched: seq<string>, prev: Response, from: nat, via: Via, to: nat) {
    && from < to < |fetched|
    && fetched[to] == ViaUrl(via)
    && match via
       case Start => false
       case Next(u) =>
         && u == NextLink(prev) && !IsBlank(u)
         && Retried(script, fetched, from + 1, to, u)
       case Resume(n, a) =>
         var mid := from + 1 + Attempts(n);
         && n == NextLink(prev)
         && a == AltUrl(prev)
         && EmptyRun(script, fetched, from + 1, mid, n)
         && Retried(script, fetched, mid, to, a)
  }

  /** Later fetches leave a hop as it was. */
  lemma {:induction false} HopGrow(script: seq<Response>, fetched: seq<string>, more: seq<string>, prev: Response, from: nat, via: Via, to: nat)
    requires Hop(script, fetched, prev, from, via, to)
    ensures Hop(script, fetched + more, prev, from, via, to)
  {
    assert (fetched + more)[to] == fetched[to];
    match via
    case Next(u) =>
      EmptyRunGrow(script, fetched, more, from + 1, to, u);
    case Resume(n, a) =>
      var mid := from + 1 + Attempts(n);
      EmptyRunGrow(script, fetched, more, from + 1, mid, n);
      EmptyRunGrow(script, fetched, more, mid, to, a);
  }

  /** Page i is what fetch `at[i]` returned. */
  predicate PageAt(script: seq<Response>, pages: seq<Response>, at: seq<nat>, fetched: seq<string>, i: int) {
    0 <= i < |pages| == |at| && at[i] < |fetched| && pages[i] == Fetch(script, at[i])
  }

  /** Page i was reached by a hop off page i - 1. */
  predicate HopAt(script: seq<Response>, pages: seq<Response>, via: seq<Via>, at: seq<nat>, fetched: seq<string>, i: int) {
    && 0 < i < |pages| == |via| == |at|
    && Hop(script, fetched, pages[i - 1], at[i - 1], via[i], at[i])
  }

  /** The pages were collected, in this order, by the fetches `fetched`: page
      i is what fetch `at[i]` returned; the first page came from the base
      address after empty fetches of it only, and each later page from a hop
      off its predecessor. */
  predicate Chain(script: seq<Response>, pages: seq<Response>, via: seq<Via>, at: seq<nat>, fetched: seq<string>) {
    && |pages| >= 1 && |via| == |pages| && |at| == |pages|
    && via[0] == Start && at[0] < |fetched| && fetched[at[0]] == Url
    && Retried(script, fetched, 0, at[0], Url)
    && (forall i :: 0 <= i < |pages| ==> PageAt(script, pages, at, fetched, i))
    && (forall i :: 0 < i < |pages| ==> HopAt(script, pages, via, at, fetched, i))
  }

  /** Fetching more keeps the chain of the pages collected so far. */
  lemma {:induction false} ChainGrow(script: seq<Response>, pages: seq<Response>, via: seq<Via>, at: seq<nat>,
                  fetched: seq<string>, more: seq<string>)
    requires Chain(script, pages, via, at, fetched)
    ensures Chain(script, pages, via, at, fetched + more)
  {
    EmptyRunGrow(script, fetched, more, 0, at[0], Url);
    assert (fetched + more)[at[0]] == fetched[at[0]];
    forall i | 0 <= i < |pages|
      ensures PageAt(script, pages, at, fetched + more, i)
    {
      assert PageAt(script, pages, at, fetched, i);
    }
    forall i | 0 < i < |pages|
      ensures HopAt(script, pages, via, at, fetched + more, i)
    {
      assert HopAt(script, pages, via, at, fetched, i);
      HopGrow(script, fetched, more, pages[i - 1], at[i - 1], via[i], at[i]);
    }
  }

  /** Adding a page at the end of a chain, given its hop. */
  lemma {:induction false} ChainAppend(script: seq<Response>, pages: seq<Response>, via: seq<Via>, at: seq<nat>,
                    fetched: seq<string>, v: Via, to: nat)
    requires Chain(script, pages, via, at, fetched)
    requires Hop(script, fetched, pages[|pages| - 1], at[|at| - 1], v, to)
    ensures Chain(script, pages + [Fetch(script, to)], via + [v], at + [to], fetched)
  {
    var pages', via', at' := pages + [Fetch(script, to)], via + [v], at + [to];
    forall i | 0 <= i < |pages'|
      ensures PageAt(script, pages', at', fetched, i)
    {
      if i < |pages| {
        assert PageAt(script, pages, at, fetched, i);
      }
    }
    forall i | 0 < i < |pages'|
      ensures HopAt(script, pages', via', at', fetched, i)
    {
      if i < |pages| {
        assert HopAt(script, pages, via, at, fetched, i);
        assert pages'[i - 1] == pages[i - 1] && at'[i - 1] == at[i - 1];
        assert via'[i] == via[i] && at'[i] == at[i];
      }
    }
  }

  /** The chain grows by the page a successful fetch of the "next" address
      returned. */
  lemma {:induction false} ChainNext(script: seq<Response>, pages: seq<Response>, via: seq<Via>, at: seq<nat>,
                  fetched: seq<string>, f: seq<string>, u: string)
    requires Chain(script, pages, via, at, fetched) && at[|at| - 1] == |fetched| - 1
    requires u == NextLink(pages[|pages| - 1]) && !IsBlank(u)
    requires 1 <= |f| <= MaxRetries + 1 && forall k :: 0 <= k < |f| ==> f[k] == u
    requires AllEmpty(script, |fetched|, |fetched| + |f| - 1)
    ensures var t: nat := |fetched| + |f| - 1;
            Chain(script, pages + [Fetch(script, t)], via + [Next(u)],
                  at + [t], fetched + f)
  {
    ChainGrow(script, pages, via, at, fetched, f);
    EmptyRunOfCall(script, fetched, f, |f| - 1, u);
    assert (fetched + f)[|fetched| + |f| - 1] == f[|f| - 1];
    ChainAppend(script, pages, via, at, fetched + f, Next(u), |fetched| + |f| - 1);
  }

  /** The chain grows by the page a resume returned after the "next" address
      failed. */
  lemma {:induction false} ChainResume(script: seq<Response>, pages: seq<Response>, via: seq<Via>, at: seq<nat>,
                    fetched: seq<string>, f: seq<string>, u: string, f2: seq<string>, alt: string)
    requires Chain(script, pages, via, at, fetched) && at[|at| - 1] == |fetched| - 1
    requires u == NextLink(pages[|pages| - 1])
    requires |f| == Attempts(u) && forall k :: 0 <= k < |f| ==> f[k] == u
    requires AllEmpty(script, |fetched|, |fetched| + |f|)
    requires alt == AltUrl(pages[|pages| - 1])
    requires 1 <= |f2| <= MaxRetries + 1 && forall k :: 0 <= k < |f2| ==> f2[k] == alt
    requires AllEmpty(script, |fetched| + |f|, |fetched| + |f| + |f2| - 1)
    ensures var t: nat := |fetched| + |f| + |f2| - 1;
            Chain(script, pages + [Fetch(script, t)], via + [Resume(u, alt)],
                  at + [t], fetched + f + f2)
  {
    ChainGrow(script, pages, via, at, fetched, f);
    ChainGrow(script, pages, via, at, fetched + f, f2);
    EmptyRunOfCall(script, fetched, f, |f|, u);
    EmptyRunGrow(script, fetched + f, f2, |fetched|, |fetched| + |f|, u);
    EmptyRunOfCall(script, fetched + f, f2, |f2| - 1, alt);
    assert (fetched + f + f2)[|fetched| + |f| + |f2| - 1] == f2[|f2| - 1];
    ChainAppend(script, pages, via, at, fetched + f + f2, Resume(u, alt), |fetched| + |f| + |f2| - 1);
  }

  /** Every page before page m was reached while the count of the entries
      before it was still short of the total. */
  predicate ShortOfTotal(pages: seq<Response>, total: int, m: nat) {
    m <= |pages| && forall i :: 0 < i < m ==> Tally(pages[..i]) < total
  }

  /** Adding a page keeps what was known of the earlier rounds. */
  lemma {:induction false} ShortKeep(pages: seq<Response>, p: Response, total: int, m: nat)
    requires ShortOfTotal(pages, total, m)
    ensures ShortOfTotal(pages + [p], total, m)
  {
    forall i | 0 < i < m
      ensures Tally((pages + [p])[..i]) < total
    {
      assert (pages + [p])[..i] == pages[..i];
    }
  }

  /** A round that started short of the total joins the earlier ones. */
  lemma {:induction false} ShortAppend(pages: seq<Response>, p: Response, total: int)
    requires ShortOfTotal(pages, total, |pages|)
    requires Tally(pages) < total
    ensures ShortOfTotal(pages + [p], total, |pages| + 1)
  {
    ShortKeep(pages, p, total, |pages|);
    assert (pages + [p])[..|pages|] == pages;
  }

  // ---------------------------------------------------------------------------
  // The walk

  /** The seconds slept by a run of calls of getNextResponse, the i-th of
      which slept naps[i] times: each call's back-off in turn. */
  function Slept(naps: seq<nat>): seq<int>
    decreases |naps|
  {
    if |naps| == 0 then [] else Slept(naps[..|naps| - 1]) + Backoff(naps[|naps| - 1])
  }

  /** One more call adds its back-off to the sleeps. */
  lemma {:induction false} SleptAppend(naps: seq<nat>, k: nat)
    ensures Slept(naps + [k]) == Slept(naps) + Backoff(k)
  {
    assert (naps + [k])[..|naps|] == naps;
  }

  /** How many times a failed call for `url` slept: never for a blank
      address, otherwise once after each of its MaxRetries retries. */
  function FailedNaps(url: string): nat {
    if IsBlank(url) then 0 else MaxRetries
  }

  /** How many times each call slept between a page got by fetch `from` and
      its successor, got by fetch `to` through `via`: the successful call
      slept after each of its empty fetches, and a resume comes after a
      failed "next" call. */
  function HopNaps(from: nat, via: Via, to: nat): seq<nat> {
    match via
    case Start => []
    case Next(_) => [if from < to then to - from - 1 else 0]
    case Resume(next, _) =>
      var mid := from + 1 + Attempts(next);
      [FailedNaps(next), if mid <= to then to - mid else 0]
  }

  /** For each call up to the one that returned page m - 1, in order, how
      many times it slept. */
  function NapsUpTo(via: seq<Via>, at: seq<nat>, m: nat): seq<nat>
    requires 1 <= m <= |via| && |at| == |via|
  {
    if m == 1 then [at[0]]
    else NapsUpTo(via, at, m - 1) + HopNaps(at[m - 2], via[m - 1], at[m - 1])
  }

  /** Later pages leave the calls before page m - 1 as they were. */
  lemma {:induction false} NapsUpToKeep(via: seq<Via>, at: seq<nat>, v: Via, t: nat, m: nat)
    requires 1 <= m <= |via| && |at| == |via|
    ensures NapsUpTo(via + [v], at + [t], m) == NapsUpTo(via, at, m)
    decreases m
  {
    if m > 1 {
      NapsUpToKeep(via, at, v, t, m - 1);
      assert (via + [v])[m - 1] == via[m - 1];
      assert (at + [t])[m - 2] == at[m - 2] && (at + [t])[m - 1] == at[m - 1];
    } else {
      assert (at + [t])[0] == at[0];
    }
  }

  /** The walk's progress: the pages collected; for each page how it was
      reached and which fetch returned it; every address fetched and every
      sleep, in order; the total declared by the first page and the running
      count of entries. */
  datatype WalkState = WalkState(
    pages: seq<Response>,
    via: seq<Via>,
    at: seq<nat>,
    fetched: seq<string>,
    sleeps: seq<int>,
    total: int,
    count: int)

  /** How the walk ended. */
  datatype Ending =
    | FirstFetchFailed           // the first page could not be had
    | ReachedTotal               // a "next" page arrived once the count had reached the total
    | NextFailedAtTotal(next: string)           // the "next" address failed once the count had reached the total
    | ResumeFailed(next: string, url: string)  // the "next" address and then the resume address both failed

  /** What a walk returns. */
  datatype Walk = Walk(state: WalkState, ending: Ending)

  /** The pages form a chain over the fetches made, and they are exactly the
      pages with entries those fetches returned. */
  predicate Trace(script: seq<Response>, pages: seq<Response>, via: seq<Via>, at: seq<nat>, fetched: seq<string>) {
    Chain(script, pages, via, at, fetched) && pages == Harvest(script, |fetched|)
  }

  /** The count at the top of a round: the total is the first page's, the
      count holds the entries of the pages before the current (last) one,
      and every round so far started short of the total. */
  predicate Counted(pages: seq<Response>, total: int, count: int) {
    && |pages| >= 1
    && total == pages[0].total
    && count == Tally(pages[..|pages| - 1])
    && (|pages| == 1 || count < total)
    && ShortOfTotal(pages, total, |pages|)
  }

  /** The state at the top of each round, sleeps aside: the current page is
      the last one collected and was returned by the latest fetch. */
  predicate Progress(script: seq<Response>, st: WalkState) {
    && Trace(script, st.pages, st.via, st.at, st.fetched)
    && st.at[|st.at| - 1] == |st.fetched| - 1
    && Counted(st.pages, st.total, st.count)
  }

  /** The sleeps so far are the back-offs of the calls that collected the
      pages. */
  predicate SleptAlong(st: WalkState) {
    && |st.pages| >= 1 && |st.via| == |st.pages| && |st.at| == |st.pages|
    && st.sleeps == Slept(NapsUpTo(st.via, st.at, |st.via|))
  }

  /** The state at the top of each round. */
  predicate Walking(script: seq<Response>, st: WalkState) {
    Progress(script, st) && SleptAlong(st)
  }

  /** What the ending `e` says about the fetches after the last page and
      about the count. */
  predicate EndedBy(script: seq<Response>, st: WalkState, e: Ending)
    requires |st.pages| >= 1 && |st.at| == |st.pages| && |st.via| == |st.pages|
  {
    var n := |st.pages|;
    match e
    case FirstFetchFailed => false
    case ReachedTotal =>
      // the last page came by its "next" link, and was not counted
      && n >= 2 && st.via[n - 1].Next? && st.at[n - 1] == |st.fetched| - 1
      && st.count == Tally(st.pages[..n - 1]) && st.count >= st.total
    case NextFailedAtTotal(next) =>
      // the last page's "next" address failed after the count had reached the total
      && next == NextLink(st.pages[n - 1])
      && ShortOfTotal(st.pages, st.total, n)
      && st.count == Tally(st.pages) && st.count >= st.total
      && |st.fetched| == st.at[n - 1] + 1 + Attempts(next)
      && EmptyRun(script, st.fetched, st.at[n - 1] + 1, |st.fetched|, next)
    case ResumeFailed(next, alt) =>
      // the "next" address failed short of the total, then the resume failed too
      var mid := st.at[n - 1] + 1 + Attempts(next);
      && next == NextLink(st.pages[n - 1])
      && ShortOfTotal(st.pages, st.total, n)
      && st.count == Tally(st.pages) && st.count < st.total
      && alt == AltUrl(st.pages[n - 1])
      && |st.fetched| == mid + MaxRetries + 1
      && EmptyRun(script, st.fetched, st.at[n - 1] + 1, mid, next)
      && EmptyRun(script, st.fetched, mid, |st.fetched|, alt)
  }

  /** How many times each failed call of the ending `e` slept. */
  function EndNaps(e: Ending): seq<nat> {
    match e
    case FirstFetchFailed => []
    case ReachedTotal => []
    case NextFailedAtTotal(next) => [FailedNaps(next)]
    case ResumeFailed(next, _) => [FailedNaps(next), MaxRetries]
  }

  /** A walk that got its first page and then ended with `e`, sleeps aside:
      the pages form a chain from the base address, the total is the first
      page's, rounds went on only while the count was short of the total,
      and the ending accounts for the fetches after the last page. */
  predicate Ended(script: seq<Response>, st: WalkState, e: Ending) {
    && Trace(script, st.pages, st.via, st.at, st.fetched)
    && st.total == st.pages[0].total
    && ShortOfTotal(st.pages, st.total, |st.pages| - 1)
    && EndedBy(script, st, e)
  }

  /** The sleeps of a walk that ended with `e`: the back-offs of the calls
      that collected the pages and then of the failed calls of the ending. */
  predicate SleptToEnd(st: WalkState, e: Ending) {
    && |st.pages| >= 1 && |st.via| == |st.pages| && |st.at| == |st.pages|
    && st.sleeps == Slept(NapsUpTo(st.via, st.at, |st.via|) + EndNaps(e))
  }

  /** A finished walk: as `Ended`, and the sleeps are those of the calls
      made. */
  predicate Finished(script: seq<Response>, st: WalkState, e: Ending) {
    Ended(script, st, e) && SleptToEnd(st, e)
  }

  /** A resume happens only while the count is short of the total. */
  lemma {:induction false} ResumeOnlyShort(script: seq<Response>, st: WalkState, e: Ending, i: int)
    requires Ended(script, st, e)
    requires 0 < i < |st.pages| && st.via[i].Resume?
    ensures Tally(st.pages[..i]) < st.total
  {
    if i == |st.pages| - 1 {
      assert e != ReachedTotal;
    }
  }

  /** A page reached by a "next" link was fetched from that link's address,
      which is never blank: a blank address is refused without a fetch. */
  lemma {:induction false} NextNeverBlank(script: seq<Response>, st: WalkState, e: Ending, i: int)
    requires Ended(script, st, e)
    requires 0 < i < |st.pages| && st.via[i].Next?
    ensures !IsBlank(st.via[i].url) && st.via[i].url == NextLink(st.pages[i - 1])
    ensures st.at[i] < |st.fetched| && st.fetched[st.at[i]] == st.via[i].url
  {
    assert HopAt(script, st.pages, st.via, st.at, st.fetched, i);
  }

  /** The trace grows by the page a successful fetch of the "next" address
      returned. */
  lemma {:induction false} TraceNext(script: seq<Response>, pages: seq<Response>, via: seq<Via>, at: seq<nat>,
                  fetched: seq<string>, f: seq<string>, u: string)
    requires Trace(script, pages, via, at, fetched) && at[|at| - 1] == |fetched| - 1
    requires u == NextLink(pages[|pages| - 1]) && !IsBlank(u)
    requires 1 <= |f| <= MaxRetries + 1 && forall k :: 0 <= k < |f| ==> f[k] == u
    requires AllEmpty(script, |fetched|, |fetched| + |f| - 1)
    requires !Empty(Fetch(script, |fetched| + |f| - 1))
    ensures var t: nat := |fetched| + |f| - 1;
            Trace(script, pages + [Fetch(script, t)], via + [Next(u)],
                  at + [t], fetched + f)
  {
    ChainNext(script, pages, via, at, fetched, f, u);
    HarvestSkipsEmpty(script, |fetched|, |fetched| + |f| - 1);
  }

  /** The trace grows by the page a resume returned after the "next" address
      failed. */
  lemma {:induction false} TraceResume(script: seq<Response>, pages: seq<Response>, via: seq<Via>, at: seq<nat>,
                    fetched: seq<string>, f: seq<string>, u: string, f2: seq<string>, alt: string)
    requires Trace(script, pages, via, at, fetched) && at[|at| - 1] == |fetched| - 1
    requires u == NextLink(pages[|pages| - 1])
    requires |f| == Attempts(u) && forall k :: 0 <= k < |f| ==> f[k] == u
    requires AllEmpty(script, |fetched|, |fetched| + |f|)
    requires alt == AltUrl(pages[|pages| - 1])
    requires 1 <= |f2| <= MaxRetries + 1 && forall k :: 0 <= k < |f2| ==> f2[k] == alt
    requires AllEmpty(script, |fetched| + |f|, |fetched| + |f| + |f2| - 1)
    requires !Empty(Fetch(script, |fetched| + |f| + |f2| - 1))
    ensures var t: nat := |fetched| + |f| + |f2| - 1;
            Trace(script, pages + [Fetch(script, t)], via + [Resume(u, alt)],
                  at + [t], fetched + f + f2)
  {
    ChainResume(script, pages, via, at, fetched, f, u, f2, alt);
    HarvestSkipsEmpty(script, |fetched|, |fetched| + |f| + |f2| - 1);
  }

  /** Fetches that all came back empty leave the trace as it was. */
  lemma {:induction false} TraceEmpty(script: seq<Response>, pages: seq<Response>, via: seq<Via>, at: seq<nat>,
                   fetched: seq<string>, f: seq<string>)
    requires Trace(script, pages, via, at, fetched)
    requires AllEmpty(script, |fetched|, |fetched| + |f|)
    ensures Trace(script, pages, via, at, fetched + f)
  {
    ChainGrow(script, pages, via, at, fetched, f);
    HarvestSkipsEmpty(script, |fetched|, |fetched| + |f|);
  }

  /** Two calls that both came back empty leave the trace of a round as it
      was. */
  lemma {:induction false} TraceEmptyTwice(script: seq<Response>, st: WalkState, f: seq<string>, f2: seq<string>)
    requires Stage(script, st, None)
    requires AllEmpty(script, |st.fetched|, |st.fetched| + |f|)
    requires AllEmpty(script, |st.fetched| + |f|, |st.fetched| + |f| + |f2|)
    ensures Trace(script, st.pages, st.via, st.at, st.fetched + f + f2)
  {
    TraceEmpty(script, st.pages, st.via, st.at, st.fetched, f);
    TraceEmpty(script, st.pages, st.via, st.at, st.fetched + f, f2);
  }

  /** The count after a round that goes on to page `p`. */
  lemma {:induction false} CountedAppend(pages: seq<Response>, total: int, count: int, p: Response)
    requires Counted(pages, total, count)
    requires Tally(pages) < total
    ensures Counted(pages + [p], total, Tally(pages))
  {
    assert (pages + [p])[..|pages|] == pages;
    ShortAppend(pages, p, total);
  }

  /** The round's count: the current page's entries join the count. */
  lemma {:induction false} CountedTally(pages: seq<Response>, total: int, count: int)
    requires Counted(pages, total, count)
    ensures count + |pages[|pages| - 1].entry| == Tally(pages)
  {
    assert pages[..|pages| - 1] + [pages[|pages| - 1]] == pages;
    TallyAppend(pages[..|pages| - 1], pages[|pages| - 1]);
  }

  /** A call for `u` that failed after `k` fetches slept as often as a
      failed call does. */
  lemma {:induction false} FailedCallNaps(u: string, k: nat)
    requires k == Attempts(u)
    ensures (if k == 0 then 0 else k - 1) == FailedNaps(u)
  {
  }

  /** The calls grow by one that went through the "next" address and
      succeeded at fetch `t`, its `k`-th. */
  lemma {:induction false} NapsNext(via: seq<Via>, at: seq<nat>, u: string, t: nat, k: nat)
    requires 1 <= |via| && |at| == |via|
    requires 1 <= k && t == at[|at| - 1] + k
    ensures NapsUpTo(via + [Next(u)], at + [t], |via + [Next(u)]|) == NapsUpTo(via, at, |via|) + [k - 1]
  {
    NapsUpToKeep(via, at, Next(u), t, |via|);
    assert (at + [t])[|via| - 1] == at[|via| - 1];
    assert (at + [t])[|via|] == t;
    assert (via + [Next(u)])[|via|] == Next(u);
    assert HopNaps(at[|at| - 1], Next(u), t) == [k - 1];
  }

  /** The calls grow by a failed call for the "next" address `n`, of `k`
      fetches, and a resume that succeeded at fetch `t`, its `k2`-th. */
  lemma {:induction false} NapsResume(via: seq<Via>, at: seq<nat>, n: string, a: string, k: nat, t: nat, k2: nat)
    requires 1 <= |via| && |at| == |via|
    requires k == Attempts(n)
    requires 1 <= k2 && t == at[|at| - 1] + k + k2
    ensures NapsUpTo(via + [Resume(n, a)], at + [t], |via + [Resume(n, a)]|)
            == NapsUpTo(via, at, |via|) + [if k == 0 then 0 else k - 1] + [k2 - 1]
  {
    NapsUpToKeep(via, at, Resume(n, a), t, |via|);
    assert (at + [t])[|via| - 1] == at[|via| - 1];
    assert (at + [t])[|via|] == t;
    assert (via + [Resume(n, a)])[|via|] == Resume(n, a);
    FailedCallNaps(n, k);
    assert t - (at[|at| - 1] + 1 + k) == k2 - 1;
    assert HopNaps(at[|at| - 1], Resume(n, a), t) == [if k == 0 then 0 else k - 1, k2 - 1];
  }

  /** A hop through the "next" address whose call slept `s` and got page
      `p` at fetch `t`, its `k`-th, adds that call's back-off to the
      sleeps. */
  lemma {:induction false} NextSleeps(st: WalkState, p: Response, u: string, t: nat, k: nat, s: seq<int>, st2: WalkState)
    requires SleptAlong(st)
    requires 1 <= k && t == st.at[|st.at| - 1] + k && s == Backoff(k - 1)
    requires st2.pages == st.pages + [p] && st2.via == st.via + [Next(u)] && st2.at == st.at + [t]
    requires st2.sleeps == st.sleeps + s
    ensures SleptAlong(st2)
  {
    NapsNext(st.via, st.at, u, t, k);
    SleptAppend(NapsUpTo(st.via, st.at, |st.via|), k - 1);
  }

  /** As `NextSleeps`, when that hop ends the walk at the total: no failed
      call comes after it. */
  lemma {:induction false} ReachedTotalSleeps(st: WalkState, p: Response, u: string, t: nat, k: nat, s: seq<int>, st2: WalkState)
    requires SleptAlong(st)
    requires 1 <= k && t == st.at[|st.at| - 1] + k && s == Backoff(k - 1)
    requires st2.pages == st.pages + [p] && st2.via == st.via + [Next(u)] && st2.at == st.at + [t]
    requires st2.sleeps == st.sleeps + s
    ensures SleptToEnd(st2, ReachedTotal)
  {
    NextSleeps(st, p, u, t, k, s, st2);
    var naps := NapsUpTo(st2.via, st2.at, |st2.via|);
    assert naps + EndNaps(ReachedTotal) == naps;
  }

  /** A failed call for the "next" address `n`, of `k` fetches, that slept
      `s`, followed by a resume that slept `s2` and got page `p` at fetch
      `t`, its `k2`-th, adds both calls' back-offs to the sleeps. */
  lemma {:induction false} ResumeSleeps(st: WalkState, p: Response, n: string, a: string, k: nat, s: seq<int>,
                                        t: nat, k2: nat, s2: seq<int>, st2: WalkState)
    requires SleptAlong(st)
    requires k == Attempts(n) && s == Backoff(if k == 0 then 0 else k - 1)
    requires 1 <= k2 && t == st.at[|st.at| - 1] + k + k2 && s2 == Backoff(k2 - 1)
    requires st2.pages == st.pages + [p] && st2.via == st.via + [Resume(n, a)] && st2.at == st.at + [t]
    requires st2.sleeps == st.sleeps + s + s2
    ensures SleptAlong(st2)
  {
    var naps := NapsUpTo(st.via, st.at, |st.via|);
    NapsResume(st.via, st.at, n, a, k, t, k2);
    SleptAppend(naps, if k == 0 then 0 else k - 1);
    SleptAppend(naps + [if k == 0 then 0 else k - 1], k2 - 1);
  }

  /** A failed call for the "next" address `u`, of `k` fetches, that slept
      `s` ends the sleeps of a walk that stops there. */
  lemma {:induction false} NextFailedSleeps(st: WalkState, u: string, k: nat, s: seq<int>, st2: WalkState)
    requires SleptAlong(st)
    requires k == Attempts(u) && s == Backoff(if k == 0 then 0 else k - 1)
    requires st2.pages == st.pages && st2.via == st.via && st2.at == st.at && st2.sleeps == st.sleeps + s
    ensures SleptToEnd(st2, NextFailedAtTotal(u))
  {
    var naps := NapsUpTo(st.via, st.at, |st.via|);
    FailedCallNaps(u, k);
    SleptAppend(naps, FailedNaps(u));
    assert naps + EndNaps(NextFailedAtTotal(u)) == naps + [FailedNaps(u)];
  }

  /** A failed call for the "next" address `u`, of `k` fetches, that slept
      `s`, followed by a failed resume that slept `s2`, ends the sleeps of
      the walk. */
  lemma {:induction false} ResumeFailedSleeps(st: WalkState, u: string, k: nat, s: seq<int>,
                                              alt: string, s2: seq<int>, st2: WalkState)
    requires SleptAlong(st)
    requires k == Attempts(u) && s == Backoff(if k == 0 then 0 else k - 1)
    requires s2 == Backoff(MaxRetries)
    requires st2.pages == st.pages && st2.via == st.via && st2.at == st.at && st2.sleeps == st.sleeps + s + s2
    ensures SleptToEnd(st2, ResumeFailed(u, alt))
  {
    var naps := NapsUpTo(st.via, st.at, |st.via|);
    FailedCallNaps(u, k);
    SleptAppend(naps, FailedNaps(u));
    SleptAppend(naps + [FailedNaps(u)], MaxRetries);
    assert naps + EndNaps(ResumeFailed(u, alt)) == naps + [FailedNaps(u)] + [MaxRetries];
  }

  /** The first call, which slept `sleeps` before its page arrived at fetch
      `t`, is the only call before the first page. */
  lemma {:induction false} FirstSleeps(p: Response, t: nat, sleeps: seq<int>)
    requires sleeps == Backoff(t)
    ensures sleeps == Slept(NapsUpTo([Start], [t], 1))
  {
    SleptAppend([], t);
    assert [] + [t] == [t];
    assert [] + Backoff(t) == sleeps;
  }

  /** Where the walk stands, sleeps aside: at the top of a round (`None`),
      or ended as reported. */
  predicate Stage(script: seq<Response>, st: WalkState, ending: Option<Ending>) {
    || (ending.None? && Progress(script, st))
    || (ending.Some? && Ended(script, st, ending.value))
  }

  /** A state whose pages trace the fetches, whose latest fetch returned its
      last page and whose count is right stands at the top of a round. */
  lemma {:induction false} ProgressOf(script: seq<Response>, st: WalkState)
    requires Trace(script, st.pages, st.via, st.at, st.fetched)
    requires |st.at| >= 1 && st.at[|st.at| - 1] == |st.fetched| - 1
    requires Counted(st.pages, st.total, st.count)
    ensures Stage(script, st, None)
  {
  }

  /** The round's "next" fetch succeeded with page `p` after `f` fetches
      while the count is still short of the total: the walk goes on. */
  lemma {:induction false} NextProgress(script: seq<Response>, st: WalkState, f: seq<string>, u: string, p: Response, st2: WalkState)
    requires Stage(script, st, None)
    requires u == NextLink(st.pages[|st.pages| - 1]) && !IsBlank(u)
    requires 1 <= |f| <= MaxRetries + 1
    requires forall k :: 0 <= k < |f| ==> f[k] == u
    requires AllEmpty(script, |st.fetched|, |st.fetched| + |f| - 1)
    requires p == Fetch(script, |st.fetched| + |f| - 1) && !Empty(p)
    requires Tally(st.pages) < st.total
    requires st2.pages == st.pages + [p] && st2.via == st.via + [Next(u)] && st2.at == st.at + [|st.fetched| + |f| - 1]
    requires st2.fetched == st.fetched + f && st2.total == st.total && st2.count == Tally(st.pages)
    ensures Stage(script, st2, None)
  {
    TraceNext(script, st.pages, st.via, st.at, st.fetched, f, u);
    CountedAppend(st.pages, st.total, st.count, p);
  }

  /** The round's "next" fetch succeeded with page `p` once the count had
      reached the total: the walk ends, leaving `p` uncounted. */
  lemma {:induction false} ReachedTotalEnded(script: seq<Response>, st: WalkState, f: seq<string>, u: string, p: Response, st2: WalkState)
    requires Stage(script, st, None)
    requires u == NextLink(st.pages[|st.pages| - 1]) && !IsBlank(u)
    requires 1 <= |f| <= MaxRetries + 1
    requires forall k :: 0 <= k < |f| ==> f[k] == u
    requires AllEmpty(script, |st.fetched|, |st.fetched| + |f| - 1)
    requires p == Fetch(script, |st.fetched| + |f| - 1) && !Empty(p)
    requires Tally(st.pages) >= st.total
    requires st2.pages == st.pages + [p] && st2.via == st.via + [Next(u)] && st2.at == st.at + [|st.fetched| + |f| - 1]
    requires st2.fetched == st.fetched + f && st2.total == st.total && st2.count == Tally(st.pages)
    ensures Stage(script, st2, Some(ReachedTotal))
  {
    var n := |st.pages|;
    TraceNext(script, st.pages, st.via, st.at, st.fetched, f, u);
    ShortKeep(st.pages, p, st.total, n);
    assert (st.pages + [p])[..n] == st.pages;
  }

  /** The round's "next" fetch failed once the count had reached the total. */
  lemma {:induction false} NextFailedEnded(script: seq<Response>, st: WalkState, f: seq<string>, u: string, st2: WalkState)
    requires Stage(script, st, None)
    requires u == NextLink(st.pages[|st.pages| - 1])
    requires |f| == Attempts(u)
    requires forall k :: 0 <= k < |f| ==> f[k] == u
    requires AllEmpty(script, |st.fetched|, |st.fetched| + |f|)
    requires Tally(st.pages) >= st.total
    requires st2.pages == st.pages && st2.via == st.via && st2.at == st.at
    requires st2.fetched == st.fetched + f && st2.total == st.total && st2.count == Tally(st.pages)
    ensures Stage(script, st2, Some(NextFailedAtTotal(u)))
  {
    TraceEmpty(script, st.pages, st.via, st.at, st.fetched, f);
    EmptyRunOfCall(script, st.fetched, f, |f|, u);
  }

  /** The round's "next" fetch failed short of the total and the resume at
      `alt` then failed as well. */
  lemma {:induction false} ResumeFailedEnded(script: seq<Response>, st: WalkState, f: seq<string>, u: string,
                                             f2: seq<string>, alt: string, st2: WalkState)
    requires Stage(script, st, None)
    requires u == NextLink(st.pages[|st.pages| - 1])
    requires |f| == Attempts(u) && forall k :: 0 <= k < |f| ==> f[k] == u
    requires AllEmpty(script, |st.fetched|, |st.fetched| + |f|)
    requires Tally(st.pages) < st.total
    requires alt == AltUrl(st.pages[|st.pages| - 1])
    requires |f2| == MaxRetries + 1
    requires forall k :: 0 <= k < |f2| ==> f2[k] == alt
    requires AllEmpty(script, |st.fetched| + |f|, |st.fetched| + |f| + |f2|)
    requires st2.pages == st.pages && st2.via == st.via && st2.at == st.at
    requires st2.fetched == st.fetched + f + f2 && st2.total == st.total && st2.count == Tally(st.pages)
    ensures Stage(script, st2, Some(ResumeFailed(u, alt)))
  {
    TraceEmptyTwice(script, st, f, f2);
    EmptyRunOfCall(script, st.fetched, f, |f|, u);
    EmptyRunGrow(script, st.fetched + f, f2, |st.fetched|, |st.fetched| + |f|, u);
    EmptyRunOfCall(script, st.fetched + f, f2, |f2|, alt);
  }

  /** The round's "next" fetch failed short of the total and the resume at
      `alt` returned page `p`: the walk goes on. */
  lemma {:induction false} ResumeProgress(script: seq<Response>, st: WalkState, f: seq<string>, u: string,
                                          f2: seq<string>, alt: string, p: Response, st2: WalkState)
    requires Stage(script, st, None)
    requires u == NextLink(st.pages[|st.pages| - 1])
    requires |f| == Attempts(u) && forall k :: 0 <= k < |f| ==> f[k] == u
    requires AllEmpty(script, |st.fetched|, |st.fetched| + |f|)
    requires Tally(st.pages) < st.total
    requires alt == AltUrl(st.pages[|st.pages| - 1])
    requires 1 <= |f2| <= MaxRetries + 1
    requires forall k :: 0 <= k < |f2| ==> f2[k] == alt
    requires AllEmpty(script, |st.fetched| + |f|, |st.fetched| + |f| + |f2| - 1)
    requires p == Fetch(script, |st.fetched| + |f| + |f2| - 1) && !Empty(p)
    requires st2.pages == st.pages + [p] && st2.via == st.via + [Resume(u, alt)]
    requires st2.at == st.at + [|st.fetched| + |f| + |f2| - 1]
    requires st2.fetched == st.fetched + f + f2 && st2.total == st.total && st2.count == Tally(st.pages)
    ensures Stage(script, st2, None)
  {
    TraceResume(script, st.pages, st.via, st.at, st.fetched, f, u, f2, alt);
    CountedAppend(st.pages, st.total, st.count, p);
    ProgressOf(script, st2);
  }

  /** Where a round leaves the walk: at the top of the next round, or
      finished with the ending it reports. */
  predicate Outcome(script: seq<Response>, st: WalkState, ending: Option<Ending>) {
    || (ending.None? && Walking(script, st))
    || (ending.Some? && Finished(script, st, ending.value))
  }

  /** The round's "next" call got page `p` after the fetches `f` and sleeps
      `s`, with the count still short of the total: the walk goes on from
      `st2`. */
  lemma {:induction false} NextStep(script: seq<Response>, st: WalkState, f: seq<string>, s: seq<int>,
                                    u: string, p: Response, st2: WalkState)
    requires Walking(script, st)
    requires u == NextLink(st.pages[|st.pages| - 1]) && !IsBlank(u)
    requires 1 <= |f| <= MaxRetries + 1 && s == Backoff(|f| - 1)
    requires forall k :: 0 <= k < |f| ==> f[k] == u
    requires AllEmpty(script, |st.fetched|, |st.fetched| + |f| - 1)
    requires p == Fetch(script, |st.fetched| + |f| - 1) && !Empty(p)
    requires Tally(st.pages) < st.total
    requires st2 == WalkState(st.pages + [p], st.via + [Next(u)], st.at + [|st.fetched| + |f| - 1],
                              st.fetched + f, st.sleeps + s, st.total, Tally(st.pages))
    ensures Outcome(script, st2, None)
  {
    NextProgress(script, st, f, u, p, st2);
    NextSleeps(st, p, u, |st.fetched| + |f| - 1, |f|, s, st2);
  }

  /** The round's "next" call got page `p` after the fetches `f` and sleeps
      `s`, with the count at or past the total: the walk ends at `st2`,
      leaving `p` uncounted. */
  lemma {:induction false} ReachedTotalStep(script: seq<Response>, st: WalkState, f: seq<string>, s: seq<int>,
                                            u: string, p: Response, st2: WalkState)
    requires Walking(script, st)
    requires u == NextLink(st.pages[|st.pages| - 1]) && !IsBlank(u)
    requires 1 <= |f| <= MaxRetries + 1 && s == Backoff(|f| - 1)
    requires forall k :: 0 <= k < |f| ==> f[k] == u
    requires AllEmpty(script, |st.fetched|, |st.fetched| + |f| - 1)
    requires p == Fetch(script, |st.fetched| + |f| - 1) && !Empty(p)
    requires Tally(st.pages) >= st.total
    requires st2 == WalkState(st.pages + [p], st.via + [Next(u)], st.at + [|st.fetched| + |f| - 1],
                              st.fetched + f, st.sleeps + s, st.total, Tally(st.pages))
    ensures Outcome(script, st2, Some(ReachedTotal))
  {
    ReachedTotalEnded(script, st, f, u, p, st2);
    ReachedTotalSleeps(st, p, u, |st.fetched| + |f| - 1, |f|, s, st2);
  }

  /** The round's "next" call for `u` failed after the fetches `f` and sleeps
      `s`, with the count at or past the total: the walk ends at `st2`. */
  lemma {:induction false} NextFailedStep(script: seq<Response>, st: WalkState, f: seq<string>, s: seq<int>,
                                          u: string, st2: WalkState)
    requires Walking(script, st)
    requires u == NextLink(st.pages[|st.pages| - 1])
    requires |f| == Attempts(u) && s == Backoff(if |f| == 0 then 0 else |f| - 1)
    requires forall k :: 0 <= k < |f| ==> f[k] == u
    requires AllEmpty(script, |st.fetched|, |st.fetched| + |f|)
    requires Tally(st.pages) >= st.total
    requires st2 == WalkState(st.pages, st.via, st.at, st.fetched + f, st.sleeps + s, st.total, Tally(st.pages))
    ensures Outcome(script, st2, Some(NextFailedAtTotal(u)))
  {
    NextFailedEnded(script, st, f, u, st2);
    NextFailedSleeps(st, u, |f|, s, st2);
  }

  /** The round's "next" call failed short of the total after the fetches
      `f` and sleeps `s`, and the resume at `alt` then got page `p` after the
      fetches `f2` and sleeps `s2`: the walk goes on from `st2`. */
  lemma {:induction false} ResumeStep(script: seq<Response>, st: WalkState, f: seq<string>, s: seq<int>, u: string,
                                      f2: seq<string>, s2: seq<int>, alt: string, p: Response, st2: WalkState)
    requires Walking(script, st)
    requires u == NextLink(st.pages[|st.pages| - 1])
    requires |f| == Attempts(u) && s == Backoff(if |f| == 0 then 0 else |f| - 1)
    requires forall k :: 0 <= k < |f| ==> f[k] == u
    requires AllEmpty(script, |st.fetched|, |st.fetched| + |f|)
    requires Tally(st.pages) < st.total
    requires alt == AltUrl(st.pages[|st.pages| - 1])
    requires 1 <= |f2| <= MaxRetries + 1 && s2 == Backoff(|f2| - 1)
    requires forall k :: 0 <= k < |f2| ==> f2[k] == alt
    requires AllEmpty(script, |st.fetched| + |f|, |st.fetched| + |f| + |f2| - 1)
    requires p == Fetch(script, |st.fetched| + |f| + |f2| - 1) && !Empty(p)
    requires st2 == WalkState(st.pages + [p], st.via + [Resume(u, alt)], st.at + [|st.fetched| + |f| + |f2| - 1],
                              st.fetched + f + f2, st.sleeps + s + s2, st.total, Tally(st.pages))
    ensures Outcome(script, st2, None)
  {
    ResumeProgress(script, st, f, u, f2, alt, p, st2);
    ResumeSleeps(st, p, u, alt, |f|, s, |st.fetched| + |f| + |f2| - 1, |f2|, s2, st2);
  }

  /** The round's "next" call failed short of the total after the fetches
      `f` and sleeps `s`, and the resume at `alt` failed as well after the
      fetches `f2` and sleeps `s2`: the walk ends at `st2`. */
  lemma {:induction false} ResumeFailedStep(script: seq<Response>, st: WalkState, f: seq<string>, s: seq<int>, u: string,
                                            f2: seq<string>, s2: seq<int>, alt: string, st2: WalkState)
    requires Walking(script, st)
    requires u == NextLink(st.pages[|st.pages| - 1])
    requires |f| == Attempts(u) && s == Backoff(if |f| == 0 then 0 else |f| - 1)
    requires forall k :: 0 <= k < |f| ==> f[k] == u
    requires AllEmpty(script, |st.fetched|, |st.fetched| + |f|)
    requires Tally(st.pages) < st.total
    requires alt == AltUrl(st.pages[|st.pages| - 1])
    requires |f2| == MaxRetries + 1 && s2 == Backoff(MaxRetries)
    requires forall k :: 0 <= k < |f2| ==> f2[k] == alt
    requires AllEmpty(script, |st.fetched| + |f|, |st.fetched| + |f| + |f2|)
    requires st2 == WalkState(st.pages, st.via, st.at, st.fetched + f + f2, st.sleeps + s + s2, st.total, Tally(st.pages))
    ensures Outcome(script, st2, Some(ResumeFailed(u, alt)))
  {
    ResumeFailedEnded(script, st, f, u, f2, alt, st2);
    ResumeFailedSleeps(st, u, |f|, s, alt, s2, st2);
  }

  /** The recovery of a round whose "next" address failed short of the
      total: one call for the address that resumes after the last id seen.
      `f` and `s` are the fetches and sleeps of the failed call for
      `nextUrl`. */
  method Recover(script: seq<Response>, st: WalkState, nextUrl: string, f: seq<string>, s: seq<int>, lastId: string)
    returns (st2: WalkState, ending: Option<Ending>)
    requires Walking(script, st)
    requires nextUrl == NextLink(st.pages[|st.pages| - 1])
    requires |f| == Attempts(nextUrl) && |f| <= MaxRetries + 1
    requires s == Backoff(if |f| == 0 then 0 else |f| - 1)
    requires forall k :: 0 <= k < |f| ==> f[k] == nextUrl
    requires AllEmpty(script, |st.fetched|, |st.fetched| + |f|)
    requires Tally(st.pages) < st.total
    requires lastId == LastId(st.pages[|st.pages| - 1])
    ensures st2.count == Tally(st.pages) && st2.total == st.total && st.pages <= st2.pages
    ensures Outcome(script, st2, ending)
  {
    var alt := Url + FetchPages + lastId;
    AltUrlNotBlank(st.pages[|st.pages| - 1]);
    var r2, f2, s2 := GetNextResponse(alt, script, |st.fetched| + |f|);
    if r2.Failure? {
      st2 := WalkState(st.pages, st.via, st.at, st.fetched + f + f2, st.sleeps + s + s2, st.total, Tally(st.pages));
      ResumeFailedStep(script, st, f, s, nextUrl, f2, s2, alt, st2);
      return st2, Some(ResumeFailed(nextUrl, alt));
    }
    var t: nat := |st.fetched| + |f| + |f2| - 1;
    st2 := WalkState(st.pages + [r2.value], st.via + [Resume(nextUrl, alt)], st.at + [t],
                     st.fetched + f + f2, st.sleeps + s + s2, st.total, Tally(st.pages));
    ResumeStep(script, st, f, s, nextUrl, f2, s2, alt, r2.value, st2);
    return st2, None;
  }

  /** One round of the walk, from the top of the loop to its next top or to
      its end: count the current page, remember its last id, fetch its "next"
      page, and resume once after that id if the fetch failed short of the
      total. */
  method Round(script: seq<Response>, st: WalkState) returns (st2: WalkState, ending: Option<Ending>)
    requires Walking(script, st)
    ensures st2.total == st.total && st2.count == st.count + |st.pages[|st.pages| - 1].entry|
    ensures st.pages <= st2.pages
    ensures Outcome(script, st2, ending)
    ensures ending.None? ==> st.count < st2.count < st2.total
  {
    var cur := st.pages[|st.pages| - 1];
    var nextUrl, _ := GetResponseLinks(cur);
    CountedTally(st.pages, st.total, st.count);
    var count := st.count + |cur.entry|;
    // the current page always has entries, so it has a last one
    var lastId := cur.entry[|cur.entry| - 1].resource.id;
    var r, f, s := GetNextResponse(nextUrl, script, |st.fetched|);
    var response: Option<Response>;
    if r.Failure? {
      if count < st.total {
        // the "next" address failed: try once to resume after lastId, and
        // go straight back to the top of the loop
        st2, ending := Recover(script, st, nextUrl, f, s, lastId);
        return;
      }
      st2 := WalkState(st.pages, st.via, st.at, st.fetched + f, st.sleeps + s, st.total, count);
      NextFailedStep(script, st, f, s, nextUrl, st2);
      response := None;
    } else {
      var t: nat := |st.fetched| + |f| - 1;
      st2 := WalkState(st.pages + [r.value], st.via + [Next(nextUrl)], st.at + [t],
                       st.fetched + f, st.sleeps + s, st.total, count);
      if count < st.total {
        NextStep(script, st, f, s, nextUrl, r.value, st2);
      } else {
        ReachedTotalStep(script, st, f, s, nextUrl, r.value, st2);
      }
      response := Some(r.value);
    }
    // a page handed back by GetNextResponse is never empty, so only the
    // count can end the walk here
    assert response.Some? ==> |response.value.entry| > 0;
    if count >= st.total || (response.Some? && |response.value.entry| == 0) {
      ending := Some(if response.None? then NextFailedAtTotal(nextUrl) else ReachedTotal);
    } else {
      ending := None;
    }
  }

  /** The first page, got after `fetched` fetches of the base address,
      starts the walk with nothing counted yet, sleeps aside. */
  lemma {:induction false} FirstProgress(script: seq<Response>, fetched: seq<string>, sleeps: seq<int>, p: Response)
    requires 1 <= |fetched| <= MaxRetries + 1
    requires forall k :: 0 <= k < |fetched| ==> fetched[k] == Url
    requires AllEmpty(script, 0, |fetched| - 1)
    requires p == Fetch(script, |fetched| - 1) && !Empty(p)
    ensures Progress(script, WalkState([p], [Start], [|fetched| - 1], fetched, sleeps, p.total, 0))
  {
    assert [] + fetched == fetched;
    EmptyRunOfCall(script, [], fetched, |fetched| - 1, Url);
    HarvestSkipsEmpty(script, 0, |fetched| - 1);
    assert Harvest(script, |fetched| - 1) == [];
    assert Harvest(script, |fetched|) == Harvest(script, |fetched| - 1) + [p];
    assert [p][..0] == [];
    assert PageAt(script, [p], [|fetched| - 1], fetched, 0);
  }

  /** The first page, got after `fetched` fetches of the base address that
      slept `sleeps`, starts the walk with nothing counted yet. */
  lemma {:induction false} FirstStep(script: seq<Response>, fetched: seq<string>, sleeps: seq<int>, p: Response)
    requires 1 <= |fetched| <= MaxRetries + 1 && sleeps == Backoff(|fetched| - 1)
    requires forall k :: 0 <= k < |fetched| ==> fetched[k] == Url
    requires AllEmpty(script, 0, |fetched| - 1)
    requires p == Fetch(script, |fetched| - 1) && !Empty(p)
    ensures Walking(script, WalkState([p], [Start], [|fetched| - 1], fetched, sleeps, p.total, 0))
  {
    var st := WalkState([p], [Start], [|fetched| - 1], fetched, sleeps, p.total, 0);
    FirstProgress(script, fetched, sleeps, p);
    assert Progress(script, st);
    FirstSleeps(p, |fetched| - 1, sleeps);
    assert SleptAlong(st);
  }

  /** `getAllResponses`: fetch the first page and freeze the total it
      declares; then run rounds until one ends the walk. Every page collected
      is kept, whichever way the walk ends. */
  method GetAllResponses(script: seq<Response>) returns (w: Walk)
    // every page that came back with entries is collected, in fetch order
    ensures w.state.pages == Harvest(script, |w.state.fetched|)
    ensures w.ending == FirstFetchFailed <==> w.state.pages == []
    ensures w.ending == FirstFetchFailed <==> AllEmpty(script, 0, MaxRetries + 1)
    ensures w.ending == FirstFetchFailed ==>
              && |w.state.fetched| == MaxRetries + 1 && EmptyRun(script, w.state.fetched, 0, MaxRetries + 1, Url)
              && w.state.total == 0 && w.state.count == 0 && w.state.sleeps == Backoff(MaxRetries)
              && w.state.via == [] && w.state.at == []
    ensures w.ending != FirstFetchFailed ==> Finished(script, w.state, w.ending)
  {
    assert !IsBlank(Url) by {
      assert Url[0] == 'h';
    }
    var first, fetched, sleeps := GetNextResponse(Url, script, 0);
    if first.Failure? {
      assert [] + fetched == fetched;
      EmptyRunOfCall(script, [], fetched, |fetched|, Url);
      HarvestSkipsEmpty(script, 0, |fetched|);
      return Walk(WalkState([], [], [], fetched, sleeps, 0, 0), FirstFetchFailed);
    }
    FirstStep(script, fetched, sleeps, first.value);
    var st := WalkState([first.value], [Start], [|fetched| - 1], fetched, sleeps, first.value.total, 0);
    while true
      invariant Walking(script, st)
      decreases if st.count < st.total then st.total - st.count else 0
    {
      var st2, ending := Round(script, st);
      if ending.Some? {
        return Walk(st2, ending.value);
      }
      st := st2;
    }
  }
}

=== FILE: wrappers.dfy ===
/** Failure-carrying values used where the catalog returns a nil pointer or an
    `error`. */
module Wrappers {

  /** A value that may be missing, like a Go pointer that may be nil. */
  datatype Option<+T> = None | Some(value: T)

  /** A value or an error, like Go's `(T, error)` pair. */
  datatype Result<+R, +E> = Success(value: R) | Failure(error: E)
}
